=== FILE: README.md ===
# Horde mode controller — a Dafny model

This project models `HordeModeController`, the MonoBehaviour behind the game
mod's "horde mode". Pressing F7 in a permitted scene rescans the scene's
characters. If a player and at least one enemy are found, it shows a banner
for three seconds. After 1.5 seconds it starts a horde whose length depends
on the scene. While the horde is active, every enemy walks straight toward
the player across the ground plane at 9 units per second. Each enemy stops
once it is within 2.5 units.

The model is made of immutable records and pure step functions over explicit
timestamps:

- `Text` covers ASCII lower-casing and substring search. These stand in for
  `ToLowerInvariant` and `string.Contains`.
- `SceneRules` holds the allow-list of scene-name fragments (`IsZeroZone`)
  and the per-scene horde duration.
- `Binding` models the two reflection binders, `TryBindCharacterMain` and
  `TryBindEnemyTracker`.
  - Each is a function from the cached binder state and an oracle "probe" to
    an answer and the new cache.
  - The probe records what the reflection lookups would find.
  - Counters record how often the costly lookups ran.
- `Scanner` covers the player lookup with its camera fallback, the
  `RescanCharacters` filter and the loop that collects enemies. The loop is
  written as a method and proved equal to a functional specification.
- `Chase` models one `DoHordeChaseStep` over a map from transform handles to
  poses.
- `Horde` holds the controller record.
  - Its step functions are `Update`, the synchronous part of
    `TriggerHordeWave`, the resumption of delayed coroutines, and
    `LateUpdate`.
  - A suspended coroutine is represented by its due time.
  - A frame runs Update, then the coroutines that are due, then LateUpdate.
- `HordeLifecycle` has lemmas that span several step functions. One of them
  is a two-frame scenario in `Level_Farm_Main`.

Notes on the controller's behaviour:

- Enemies are not filtered by team, health or name tag. The only filter
  removes transforms related to the player.
- A trigger during a running horde is not refused. It rescans, shows the
  banner again and schedules another activation, which overwrites the end
  time (`HordeLifecycle.RetriggerWhileActive`).
- The trigger runs a fresh rescan instead of reusing the last periodic scan.
- Both binders cache a failure only when the type itself was not found. When
  the type was found but a member is missing, they retry on every call
  (`Binding.PlayerMembersRetried`, `Binding.TrackerMembersRetried`).

## Model

| member | source | states |
|---|---|---|
| Text.Lower | hordemode.cs:174 | The result has the input's length, and each character is that character's lower-case form. |
| Text.Contains | hordemode.cs:177-206 | True exactly when the fragment occurs at some position of the text. |
| Text.ContainsInfix | hordemode.cs:196-202 | Every piece of a fragment that occurs in a name also occurs in that name. |
| SceneRules.IsZeroZone | hordemode.cs:168-210 | A scene is permitted exactly when its name is non-empty and its lower-cased form contains one of the eight fragments. |
| SceneRules.HordeDuration | hordemode.cs:213-236 | The duration differs from the 25 s base exactly when the name contains an override fragment. It is then the value of the first matching override, in the order farm_01, farm_main, stormzone, hiddenwarehouse. It is never below 25 s. |
| SceneRules.OverrideMembership | hordemode.cs:223-233 | Some entry of the override table matches exactly when one of the four fragment tests of the duration chain succeeds. |
| SceneRules.FirstOverrideTests | hordemode.cs:223-233 | The test at which the duration chain stops is the first entry of the override table that matches. |
| SceneRules.OverrideMatchIsPermitted | hordemode.cs:168-236 | A name that matches any override fragment is a permitted scene. |
| SceneRules.OverrideImpliesPermitted | hordemode.cs:168-236 | Every scene with a longer horde is also a permitted scene. |
| SceneRules.PermittedWithoutOverrideIsBase | hordemode.cs:213-236 | A permitted scene without an override fragment gets exactly 25 s. |
| SceneRules.CaseInsensitive | hordemode.cs:174 | Two names that agree after lower-casing get the same permission and duration. |
| SceneRules.FacilityFragmentIsSubsumed | hordemode.cs:196-202 | Every name that contains farm_jlab_facility is already permitted by the jlab test. |
| SceneRules.LevelCityIsNotPermitted | hordemode.cs:168-210 | "Level_City" is not permitted and gets the base duration. |
| SceneRules.FarmScenesGetFortyFive | hordemode.cs:223-225 | A name containing farm_01 or farm_main is permitted and gets 45 s. |
| SceneRules.FarmMainIsPermittedForFortyFive | hordemode.cs:188-194 | "Level_Farm_Main" is permitted and gets 45 s. |
| Binding.BindPlayer | hordemode.cs:240-332 | Covers these cases: a bound binder answers true and changes nothing; a failed type lookup is cached, and later calls answer false without searching; a search that throws answers false and learns nothing. Otherwise the type is known afterwards exactly when it was known or the lookup by name or the full scan finds it, and the recorded Main field and property flags are the found type's. The full scan runs on the first try exactly when the lookup by name fails, and never on later tries. The answer is true exactly when the type is known and has a static Main field or property. The type, once known, stays known. |
| Binding.PlayerBoundIsFinal | hordemode.cs:242-243 | Once bound, any sequence of calls answers true and leaves the binder unchanged. |
| Binding.PlayerFailureIsFinal | hordemode.cs:245-246 | After a try that did not find the type, any sequence of calls answers false and leaves the binder unchanged. |
| Binding.MissingPlayerTypeIsCached | hordemode.cs:245-308 | If the first call does not find the type, no later call searches again. |
| Binding.RunPlayerConsistent | hordemode.cs:62-66 | The cache fields stay consistent across any sequence of calls. For example, bound implies that the type is known. |
| Binding.FullScanRunsAtMostOnce | hordemode.cs:272-302 | However many calls are made, the scan over every type runs at most once. |
| Binding.PlayerMembersRetried | hordemode.cs:245-322 | A found type without a Main member is searched again on every call, and each call answers false. The full scan never runs again. |
| Binding.BindTracker | hordemode.cs:380-451 | Covers these cases: bound answers true unchanged; a missing type is cached as failure; a search that throws answers false and learns nothing. Otherwise the type is known afterwards exactly when it was known or the lookup finds it; the members are resolved once more exactly then; and the answer is true exactly when the type is known and GetLiveEnemies, EnemyInfo and character all exist. |
| Binding.TrackerBoundIsFinal | hordemode.cs:382-383 | Once bound, every later call answers true and leaves the binder unchanged. |
| Binding.TrackerFailureIsFinal | hordemode.cs:385-386 | After a try that did not find the type, every later call answers false unchanged. |
| Binding.TrackerMembersRetried | hordemode.cs:385-440 | A found tracker type with a missing member is searched for again, and its members resolved again, on every call. Every call answers false. |
| Scanner.FindPlayerReadsHostMain | hordemode.cs:334-368 | Once a search that does not throw finds the type, the player is the Main property's transform if the type has that property, else the Main field's, with the camera root standing in for a missing member or a null Main. |
| Scanner.FindPlayer | hordemode.cs:334-376 | The binder advances exactly as TryBindCharacterMain does. When binding fails the camera root is used. When it succeeds, the member read is the Main property if bound, else the Main field; its transform is the result, or the camera root when it yields none. The result is none only when the camera root is absent. |
| Scanner.Readable | hordemode.cs:491-530 | The entries read before the first entry whose character field throws. This is a prefix containing no faulty entry, and it ends just before a faulty entry unless it is the whole list. |
| Scanner.ReadableIsPrefixUpTo | hordemode.cs:491-530 | A prefix without faulty entries that ends at a faulty entry or at the end of the list is exactly what gets read. |
| Scanner.TransformsAreCharacters | hordemode.cs:493-500 | A transform is counted exactly when some entry holds a character with that transform. Null entries and non-components are skipped. |
| Scanner.TiedToPlayer | hordemode.cs:505-512 | A transform is tied to the player when there is a player and the transform is the player, under it, or above it. |
| Scanner.UnrelatedMembers | hordemode.cs:504-513 | A transform passes the player filter exactly when it is listed, is not the player, is not under the player, and is not above the player. |
| Scanner.Dedup | hordemode.cs:488-518 | The result has no duplicates and holds exactly the input's elements. |
| Scanner.DedupOfDistinct | hordemode.cs:515-518 | On a list without duplicates, the HashSet filter drops nothing. |
| Scanner.DedupKeepsFirstOccurrenceOrder | hordemode.cs:515-518 | The result lists elements in the order of their first occurrence in the input. |
| Scanner.UnrelatedKeepsOrder | hordemode.cs:504-513 | The filter keeps the relative order of the transforms it keeps. |
| Scanner.UnrelatedKeepsAll | hordemode.cs:504-513 | When no transform is tied to the player, the player filter keeps the whole list. |
| Scanner.CollectStep | hordemode.cs:493-518 | One loop iteration only appends, and at most one transform. It adds exactly the entry's character transform, when that transform is unrelated to the player and not yet listed. A list without duplicates stays without duplicates. |
| Scanner.Kept | hordemode.cs:488-519 | The kept list has no duplicates. It is no longer than the live count. It holds a transform exactly when some readable entry holds that character and the transform is not tied to the player. |
| Scanner.KeptInFirstOccurrenceOrder | hordemode.cs:488-519 | The kept transforms appear in the order they were first enumerated. |
| Scanner.KeptPrefixStep | hordemode.cs:491-519 | One more entry extends the reference list of a prefix exactly as one loop iteration extends the loop's list. |
| Scanner.CollectedIsKept | hordemode.cs:488-519 | After any sequence of entries, the list the loop builds one step at a time equals the reference list: the deduplicated character transforms that are not tied to the player. |
| Scanner.CollectEnemies | hordemode.cs:488-519 | The loop's enemy list equals Kept. Its live count equals the number of character transforms read before the first fault. |
| Scanner.RescanCharacters | hordemode.cs:467-531 | The player is always refreshed. The list is empty when the tracker is unbound or the enumeration is unavailable. Otherwise it is the reference list Kept: exactly the readable characters not tied to the player, in first-enumeration order. It never exceeds the live count and never contains duplicates. |
| Chase.PlanarOffset | hordemode.cs:584-585 | The offset toward the player lies in the ground plane. |
| Chase.Arrived | hordemode.cs:574-589 | An enemy has arrived when its squared planar distance to the target is at most 2.5 squared. |
| Chase.StepEnemy | hordemode.cs:579-602 | An enemy within the stop distance stays put. A moving enemy keeps its height and moves along the planar direction to the player: with a positive normalisation factor and a positive stride its displacement points toward the player. It turns only toward a horizontal direction longer than the epsilon, which with a positive normalisation factor points toward the player. |
| Chase.ExactStride | hordemode.cs:591-602 | When the normalisation is exact, the enemy moves exactly speed × deltaTime and its new facing is the planar offset to the player scaled to unit length. |
| Chase.ChaseAll | hordemode.cs:577-603 | The set of transforms is unchanged. A transform not in the enemy list keeps its pose. |
| Chase.ChaseStepsEachOnce | hordemode.cs:577-603 | With distinct enemies, each listed enemy gets exactly one step from its own starting pose. |
| Chase.ChaseStep | hordemode.cs:568-604 | Without a player, or when the player is destroyed, nothing moves. No transform is created or removed. Transforms outside the enemy list keep their poses. Every height is preserved. With a live player and a list without duplicates, each listed enemy takes exactly one StepEnemy of stride deltaTime × 9 toward the position the player had when the step began. |
| Chase.ChaseKeepsHeights | hordemode.cs:583-597 | No enemy's height changes during a chase step. |
| Horde.Rescan | hordemode.cs:467-531 | A rescan changes only the player, the list and the binder caches. The player and both caches are those FindPlayer, BindPlayer and BindTracker give. With a bound tracker and an enumeration the list is Kept; without an enumeration, or without a bound tracker, it is empty. The list has no duplicates and nothing tied to the player. |
| Horde.Ready | hordemode.cs:546 | The trigger proceeds exactly when the rescan found a player and a non-empty enemy list. |
| Horde.Trigger | hordemode.cs:535-557 | Outside a permitted scene nothing changes. Inside one it always rescans. Without a player or enemies the banner and schedule are untouched. On success the banner runs until now + 3 and an activation is scheduled at now + 1.5. It never activates by itself. |
| Horde.ScanDue | hordemode.cs:77 | The periodic scan is due exactly when no horde is active and now has reached the next scan time. |
| Horde.Update | hordemode.cs:74-88 | A scan runs only when no horde is active and its time has come: it rescans and moves the next scan to now + 3. A key press runs the trigger, after the scan when both happen. With no scan and no key press nothing changes. Update never touches the horde's state. |
| Horde.BannerVisible | hordemode.cs:111 | The banner is drawn exactly while now ≤ the banner deadline. |
| Horde.Activate | hordemode.cs:559-561 | The horde becomes active until exactly now plus the scene's duration, which is at least 25 s. No other field changes: player, enemies, banner, next scan time, waiting coroutines and both caches are kept. |
| Horde.StillWaiting | hordemode.cs:557 | The coroutines still waiting are exactly those whose due time is after now. |
| Horde.ResumeDue | hordemode.cs:557-561 | If any coroutine is due, the horde starts with the current scene's duration and the due ones are dropped; player, enemies, banner, next scan time and both caches are kept. Otherwise nothing changes. |
| Horde.StillWaitingKeepsAll | hordemode.cs:557 | When nothing is due, the waiting list is unchanged. |
| Horde.LateUpdate | hordemode.cs:90-103 | An inactive controller does nothing. An active one stops only when now is strictly past the end time, without moving anyone. Otherwise it runs one chase step. |
| Horde.Frame | hordemode.cs:74-103 | A frame never creates or removes transforms. |
| HordeLifecycle.ScansAreSpaced | hordemode.cs:76-81 | After an Update at t that ran the periodic scan, a further Update before t + 3 without a key press changes nothing. |
| HordeLifecycle.ActivationAfterDelay | hordemode.cs:554-561 | From t + 1.5 on, a successful trigger at t has started the horde with the scene's duration. |
| HordeLifecycle.NoActivationBeforeDelay | hordemode.cs:556-557 | When no earlier activation is waiting, resuming coroutines before t + 1.5 after a successful trigger at t changes nothing. |
| HordeLifecycle.BannerWindowAfterTrigger | hordemode.cs:105-112 | After a successful trigger at t, the banner shows exactly while now ≤ t + 3. |
| HordeLifecycle.RetriggerWhileActive | hordemode.cs:84-87 | A trigger during an active horde rescans and schedules another activation. That activation overwrites the end time. |
| HordeLifecycle.ActivateIsIdempotent | hordemode.cs:559-561 | Two coroutines resumed in the same frame leave the same state as one. |
| HordeLifecycle.LateUpdateMovesOnlyEnemies | hordemode.cs:90-103 | For every input, LateUpdate keeps the set of transforms, moves no transform outside the enemy list, changes no field but the active flag, and never turns the horde on. |
| HordeLifecycle.ExpiredHordeStaysStill | hordemode.cs:92-101 | After a LateUpdate has ended the horde, any later LateUpdate leaves the controller and every pose unchanged. |
| HordeLifecycle.ExpiryIsStrict | hordemode.cs:92-101 | A LateUpdate at exactly the end time still chases. Any LateUpdate after it ends the horde without moving anyone. |
| HordeLifecycle.LevelCityTriggerIsIgnored | hordemode.cs:537-542 | F7 in "Level_City" changes nothing. |
| HordeLifecycle.ThreeEnemyScan | hordemode.cs:467-519 | From unbound caches, a host whose player is Main = 0 and whose tracker lists three unrelated enemies yields player 0 and enemies [1, 2, 3]. Both caches end up bound. |
| HordeLifecycle.ThreeEnemyRescan | hordemode.cs:467-519 | With both caches already bound, the same host yields the same player and enemies again. |
| HordeLifecycle.InitialIsUnstarted | hordemode.cs:33-66 | The freshly added component, with every field at its default, has no horde, no waiting activation and no bound cache, and its first scan is due at once. |
| HordeLifecycle.FarmMainFirstUpdate | hordemode.cs:74-88 | In Level_Farm_Main at t = 10, a controller that has not started runs the periodic scan and a successful trigger in one Update. The banner runs until 13 and the activation is due at 11.5. |
| HordeLifecycle.QuietFrame | hordemode.cs:90-103 | A frame whose Update leaves no horde active and no coroutine due ends in that Update's state, with no transform moved. |
| HordeLifecycle.FarmMainFirstFrame | hordemode.cs:74-103 | With the first Update's outcome, the whole frame at t = 10 leaves the banner, the activation due at 11.5, player 0 and enemies [1, 2, 3] in place, with no horde active yet. |
| HordeLifecycle.FarmMainSecondFrame | hordemode.cs:90-103 | In the frame at 11.5, the waiting coroutine starts a 45-second horde, which chases in that same frame. |
| HordeLifecycle.FarmMainScenario | hordemode.cs:535-561 | In Level_Farm_Main, from a controller that has not started (such as the fresh one): F7 at 10 s shows the banner until 13 s and schedules the activation at 11.5 s. At 11.5 s the horde is active until 56.5 s and chases. The banner is gone at 13.5 s. |

## Left out

- `Awake`, `DontDestroyOnLoad`, the plugin setup that adds the component, and every `Debug.Log` line are left out. They have no effect on the modelled state.
- `OnGUI` layout, `SetupGuiStyle` and the outline drawing are left out. Only the visibility test at line 111 is modelled (`Horde.BannerVisible`), because the rest is drawing.
- `GetCurrentSceneName` is a parameter (`Host.scene`), because it queries Unity's scene manager.
- `Time.time`, `Time.deltaTime` and `Input.GetKeyDown(KeyCode.F7)` are inputs of a frame (`Horde.Tick`).
- Reflection itself (assembly enumeration, `GetType`, `GetField`, `GetProperty`, `Invoke`) is left out.
  - It is replaced by probe records that say what each lookup finds.
  - The per-assembly search order is not modelled, only whether the type is found by name or by the full scan.
  - An exception thrown while resolving members is modelled as a missing member. Its observable effect is the same: the answer is false and the member search repeats.
- `Camera.main` and `Component.transform` are optional handles in the player source. Unity object lifetime ("fake null") is not modelled.
- `Transform.IsChildOf` is an uninterpreted relation given with the scan source. Unity's hierarchy is not modelled.
- `ToTransform` (lines 453-464) is not modelled, because nothing in the controller calls it.
- Text.Lower: folds only ASCII A-Z. `ToLowerInvariant` also folds some non-ASCII capitals to ASCII letters, such as U+0130 to 'i' and U+212A (Kelvin sign) to 'k'. So a name like "LEVEL_FARM_MAİN" is permitted by the controller but refused by the model. Unicode case tables are left out.
- Timestamps are exact reals. The single-precision rounding of `Time.time + 3f` and `Time.time + 1.5f` is not modelled.
- Horde.Update: the periodic scan and the F7 rescan in the same frame read the same `ScanSource` (`Host.scan`). The host cannot change between the two scans of one frame.
- Chase.StepEnemy: single-precision floats and `Vector3.normalized` are not modelled.
  - Positions are exact reals.
  - Normalisation multiplies by an uninterpreted inverse length. The contract states that the displacement is parallel to the offset, that it points toward the player when that factor is positive, and that the height is kept. It does not state unit length.
  - `Chase.ExactStride` gives the exact stride under the assumption that the inverse length is exact.
- Unity's coroutine scheduler is reduced to due times resumed after `Update` and before `LateUpdate`. A coroutine started while its component is disabled, and the stopping of coroutines, are not modelled.
- Horde.Frame: only states that transforms are neither created nor removed. The per-phase properties are stated on `Update`, `ResumeDue` and `LateUpdate`.

=== FILE: binding.dfy ===
/**
 The two reflection binders of HordeModeController, TryBindCharacterMain
 and TryBindEnemyTracker, as pure functions over their cache state.

 Reflection itself is an oracle: a probe record says what the loaded
 assemblies reveal to one call (does the direct lookup by name find the
 type, does the full type scan find it, does the search throw, which members
 does the type carry). A new probe is given to every call, so the lemmas hold
 however the host's assemblies change between calls. Each state counts the
 searches it has started so that the caching claims can be stated as
 "the counter does not move".
 */
module Binding {

  /** What one TryBindCharacterMain call finds in the loaded assemblies. */
  datatype PlayerProbe = PlayerProbe(
    directFinds: bool,      // GetType("CharacterMainControl") or "Duckov.CharacterMainControl" succeeds
    scanFinds: bool,        // some loaded type has the short name CharacterMainControl
    lookupThrows: bool,     // the assembly search throws before a type is found
    hasMainField: bool,     // the held type has a static field Main
    hasMainProperty: bool)  // the held type has a static property Main

  /**
   The CharacterMainControl cache: `bound` is _playerTypeBound, `tried` is
   _playerTypeTried, `typeKnown` is _characterMainType != null, and the two
   member flags are _characterMainField / _characterMainProperty != null.
   */
  datatype PlayerBinder = PlayerBinder(
    bound: bool,
    tried: bool,
    typeKnown: bool,
    mainField: bool,
    mainProperty: bool,
    typeSearches: nat,  // direct lookups by name started
    fullScans: nat)     // slow scans over every loaded type started

  const PlayerUnbound := PlayerBinder(false, false, false, false, false, 0, 0)

  datatype PlayerBind = PlayerBind(binder: PlayerBinder, ok: bool)

  /** The cache states reachable from PlayerUnbound. */
  ghost predicate PlayerConsistent(b: PlayerBinder)
  {
    && (b.bound ==> b.typeKnown && (b.mainField || b.mainProperty))
    && (b.typeKnown ==> b.tried)
    && (!b.tried ==> b.fullScans == 0 && b.typeSearches == 0)
    && b.fullScans <= 1
  }

  /** TryBindCharacterMain: bind the static accessor CharacterMainControl.Main. */
  function BindPlayer(b: PlayerBinder, p: PlayerProbe): (r: PlayerBind)
    // the answer always mirrors the bound flag
    ensures r.ok <==> r.binder.bound
    // positive cache: a bound binder answers true and searches nothing
    ensures b.bound ==> r == PlayerBind(b, true)
    // negative cache: once tried with no type found, answer false and search nothing
    ensures !b.bound && b.tried && !b.typeKnown ==> r == PlayerBind(b, false)
    // every other call searches again
    ensures !b.bound && !(b.tried && !b.typeKnown) ==>
              r.binder.tried && r.binder.typeSearches == b.typeSearches + 1
    // a found type is never forgotten
    ensures b.typeKnown ==> r.binder.typeKnown
    // the slow full scan only runs on the first attempt
    ensures b.tried ==> r.binder.fullScans == b.fullScans
    ensures r.binder.fullScans <= b.fullScans + 1
    ensures r.ok && !b.bound ==> r.binder.typeKnown && (r.binder.mainField || r.binder.mainProperty)
    // a search that does not throw holds the type exactly when it was held or one of the lookups finds it,
    // and succeeds exactly when that type has a static Main field or property
    ensures !b.bound && !(b.tried && !b.typeKnown) && !p.lookupThrows ==>
              (r.binder.typeKnown <==> b.typeKnown || p.directFinds || p.scanFinds)
              && (r.ok <==> r.binder.typeKnown && (p.hasMainField || p.hasMainProperty))
    // the first search falls back to the full scan exactly when the lookup by name fails
    ensures !b.bound && !b.tried && !b.typeKnown && !p.lookupThrows ==>
              r.binder.fullScans == b.fullScans + (if p.directFinds then 0 else 1)
    // a search that throws answers false and learns nothing
    ensures !b.bound && p.lookupThrows ==> !r.ok && r.binder.typeKnown == b.typeKnown
    // a search that finds the type records which Main members it has
    ensures !b.bound && !(b.tried && !b.typeKnown) && !p.lookupThrows && r.binder.typeKnown ==>
              r.binder.mainField == p.hasMainField && r.binder.mainProperty == p.hasMainProperty
    ensures PlayerConsistent(b) ==> PlayerConsistent(r.binder)
  {
    if b.bound then PlayerBind(b, true)
    else if b.tried && !b.typeKnown then PlayerBind(b, false)
    else
      var searching := b.(tried := true, typeSearches := b.typeSearches + 1);
      if p.lookupThrows then PlayerBind(searching, false)
      else
        var direct := b.typeKnown || p.directFinds;
        var scanned := if direct then searching else searching.(fullScans := searching.fullScans + 1);
        if !(direct || p.scanFinds) then PlayerBind(scanned, false)
        else
          var resolved := scanned.(typeKnown := true, mainField := p.hasMainField, mainProperty := p.hasMainProperty);
          if !p.hasMainField && !p.hasMainProperty then PlayerBind(resolved, false)
          else PlayerBind(resolved.(bound := true), true)
  }

  /** The state after a sequence of TryBindCharacterMain calls and each call's answer. */
  datatype PlayerRun = PlayerRun(binder: PlayerBinder, answers: seq<bool>)

  function RunPlayer(b: PlayerBinder, ps: seq<PlayerProbe>): (r: PlayerRun)
    ensures |r.answers| == |ps|
    decreases |ps|
  {
    if ps == [] then PlayerRun(b, [])
    else
      var first := BindPlayer(b, ps[0]);
      var rest := RunPlayer(first.binder, ps[1..]);
      PlayerRun(rest.binder, [first.ok] + rest.answers)
  }

  /** Once bound, every later call answers true and the state, counters included, never changes. */
  lemma {:induction false} PlayerBoundIsFinal(b: PlayerBinder, ps: seq<PlayerProbe>)
    requires b.bound
    ensures RunPlayer(b, ps).binder == b
    ensures forall i :: 0 <= i < |ps| ==> RunPlayer(b, ps).answers[i]
    decreases |ps|
  {
    if ps != [] {
      PlayerBoundIsFinal(b, ps[1..]);
    }
  }

  /** Once tried with no type found, every later call answers false and searches nothing. */
  lemma {:induction false} PlayerFailureIsFinal(b: PlayerBinder, ps: seq<PlayerProbe>)
    requires !b.bound && b.tried && !b.typeKnown
    ensures RunPlayer(b, ps).binder == b
    ensures forall i :: 0 <= i < |ps| ==> !RunPlayer(b, ps).answers[i]
    decreases |ps|
  {
    if ps != [] {
      PlayerFailureIsFinal(b, ps[1..]);
    }
  }

  /** A call that ends with no type found settles the binder for good. */
  lemma MissingPlayerTypeIsCached(b: PlayerBinder, p: PlayerProbe, ps: seq<PlayerProbe>)
    requires PlayerConsistent(b)
    requires !BindPlayer(b, p).binder.typeKnown
    ensures RunPlayer(BindPlayer(b, p).binder, ps).binder == BindPlayer(b, p).binder
    ensures forall i :: 0 <= i < |ps| ==> !RunPlayer(BindPlayer(b, p).binder, ps).answers[i]
  {
    PlayerFailureIsFinal(BindPlayer(b, p).binder, ps);
  }

  /** Any run from a consistent state stays consistent. */
  lemma {:induction false} RunPlayerConsistent(b: PlayerBinder, ps: seq<PlayerProbe>)
    requires PlayerConsistent(b)
    ensures PlayerConsistent(RunPlayer(b, ps).binder)
    decreases |ps|
  {
    if ps != [] {
      RunPlayerConsistent(BindPlayer(b, ps[0]).binder, ps[1..]);
    }
  }

  /** Over any sequence of calls from the initial state, the full type scan runs at most once. */
  lemma FullScanRunsAtMostOnce(ps: seq<PlayerProbe>)
    ensures RunPlayer(PlayerUnbound, ps).binder.fullScans <= 1
  {
    RunPlayerConsistent(PlayerUnbound, ps);
  }

  /**
   A found CharacterMainControl type without a static Main member is not
   cached as a failure: every later call searches by name again and answers
   false, but never repeats the full scan.
   */
  lemma {:induction false} PlayerMembersRetried(b: PlayerBinder, ps: seq<PlayerProbe>)
    requires !b.bound && b.typeKnown
    requires forall i :: 0 <= i < |ps| ==> !ps[i].hasMainField && !ps[i].hasMainProperty
    ensures RunPlayer(b, ps).binder.typeSearches == b.typeSearches + |ps|
    ensures RunPlayer(b, ps).binder.fullScans == b.fullScans
    ensures forall i :: 0 <= i < |ps| ==> !RunPlayer(b, ps).answers[i]
    decreases |ps|
  {
    if ps != [] {
      PlayerMembersRetried(BindPlayer(b, ps[0]).binder, ps[1..]);
    }
  }

  /** What one TryBindEnemyTracker call finds in the loaded assemblies. */
  datatype TrackerProbe = TrackerProbe(
    typeFinds: bool,          // GetType("DuckovCheatUI.Utiles.EnemyTracker") succeeds
    lookupThrows: bool,       // the assembly search throws before a type is found
    hasGetLiveEnemies: bool,  // public static method GetLiveEnemies
    hasEnemyInfo: bool,       // nested type EnemyInfo
    hasCharacterField: bool)  // EnemyInfo.character field

  /**
   The EnemyTracker cache: `bound` is _trackerBound, `tried` is _trackerTried,
   `typeKnown` is _trackerType != null.
   */
  datatype TrackerBinder = TrackerBinder(
    bound: bool,
    tried: bool,
    typeKnown: bool,
    typeSearches: nat,       // lookups by name started
    memberResolutions: nat)  // member lookups (GetLiveEnemies onward) started

  const TrackerUnbound := TrackerBinder(false, false, false, 0, 0)

  datatype TrackerBind = TrackerBind(binder: TrackerBinder, ok: bool)

  ghost predicate HasAllMembers(p: TrackerProbe)
  {
    p.hasGetLiveEnemies && p.hasEnemyInfo && p.hasCharacterField
  }

  /** TryBindEnemyTracker: bind EnemyTracker.GetLiveEnemies and EnemyInfo.character. */
  function BindTracker(b: TrackerBinder, p: TrackerProbe): (r: TrackerBind)
    ensures r.ok <==> r.binder.bound
    ensures b.bound ==> r == TrackerBind(b, true)
    ensures !b.bound && b.tried && !b.typeKnown ==> r == TrackerBind(b, false)
    ensures !b.bound && !(b.tried && !b.typeKnown) ==>
              r.binder.tried && r.binder.typeSearches == b.typeSearches + 1
    ensures b.typeKnown ==> r.binder.typeKnown
    // a search that does not throw holds the type exactly when it was held or the lookup finds it,
    // and succeeds exactly when that type has all three members
    ensures !b.bound && !(b.tried && !b.typeKnown) && !p.lookupThrows ==>
              (r.binder.typeKnown <==> b.typeKnown || p.typeFinds)
              && (r.ok <==> (b.typeKnown || p.typeFinds) && HasAllMembers(p))
    // a held type with a missing member is not cached as a failure: the members are looked up again
    ensures !b.bound && !(b.tried && !b.typeKnown) && !p.lookupThrows ==>
              r.binder.memberResolutions == b.memberResolutions + (if b.typeKnown || p.typeFinds then 1 else 0)
    // a search that throws answers false and learns nothing
    ensures !b.bound && p.lookupThrows ==> !r.ok && r.binder.typeKnown == b.typeKnown
    ensures r.ok && !b.bound ==> HasAllMembers(p)
  {
    if b.bound then TrackerBind(b, true)
    else if b.tried && !b.typeKnown then TrackerBind(b, false)
    else
      var searching := b.(tried := true, typeSearches := b.typeSearches + 1);
      if p.lookupThrows then TrackerBind(searching, false)
      else if !(b.typeKnown || p.typeFinds) then TrackerBind(searching, false)
      else
        var resolving := searching.(typeKnown := true, memberResolutions := searching.memberResolutions + 1);
        if !p.hasGetLiveEnemies then TrackerBind(resolving, false)
        else if !p.hasEnemyInfo then TrackerBind(resolving, false)
        else if !p.hasCharacterField then TrackerBind(resolving, false)
        else TrackerBind(resolving.(bound := true), true)
  }

  datatype TrackerRun = TrackerRun(binder: TrackerBinder, answers: seq<bool>)

  function RunTracker(b: TrackerBinder, ps: seq<TrackerProbe>): (r: TrackerRun)
    ensures |r.answers| == |ps|
    decreases |ps|
  {
    if ps == [] then TrackerRun(b, [])
    else
      var first := BindTracker(b, ps[0]);
      var rest := RunTracker(first.binder, ps[1..]);
      TrackerRun(rest.binder, [first.ok] + rest.answers)
  }

  /** Once bound, every later call answers true and the state never changes. */
  lemma {:induction false} TrackerBoundIsFinal(b: TrackerBinder, ps: seq<TrackerProbe>)
    requires b.bound
    ensures RunTracker(b, ps).binder == b
    ensures forall i :: 0 <= i < |ps| ==> RunTracker(b, ps).answers[i]
    decreases |ps|
  {
    if ps != [] {
      TrackerBoundIsFinal(b, ps[1..]);
    }
  }

  /** Once tried with no type found, every later call answers false and searches nothing. */
  lemma {:induction false} TrackerFailureIsFinal(b: TrackerBinder, ps: seq<TrackerProbe>)
    requires !b.bound && b.tried && !b.typeKnown
    ensures RunTracker(b, ps).binder == b
    ensures forall i :: 0 <= i < |ps| ==> !RunTracker(b, ps).answers[i]
    decreases |ps|
  {
    if ps != [] {
      TrackerFailureIsFinal(b, ps[1..]);
    }
  }

  /**
   A found tracker type whose members stay missing is retried on every call:
   each call answers false and repeats the member lookups.
   */
  lemma {:induction false} TrackerMembersRetried(b: TrackerBinder, ps: seq<TrackerProbe>)
    requires !b.bound && b.typeKnown
    requires forall i :: 0 <= i < |ps| ==> !ps[i].lookupThrows && !HasAllMembers(ps[i])
    ensures RunTracker(b, ps).binder.memberResolutions == b.memberResolutions + |ps|
    ensures RunTracker(b, ps).binder.typeSearches == b.typeSearches + |ps|
    ensures forall i :: 0 <= i < |ps| ==> !RunTracker(b, ps).answers[i]
    decreases |ps|
  {
    if ps != [] {
      var next := BindTracker(b, ps[0]).binder;
      TrackerMembersRetried(next, ps[1..]);
    }
  }
}

=== FILE: chase.dfy ===
/**
 DoHordeChaseStep: every tracked enemy steps toward the player in the
 horizontal plane. Positions are real vectors. Vector3.normalized is left
 uninterpreted as a parameter `invLength`: the normalized direction is the
 planar offset scaled by invLength(squared length), so only the branch
 structure and the geometry that does not depend on square roots are fixed.
 */
module Chase {
  import opened Options
  import opened Scanner

  datatype Vec3 = Vec3(x: real, y: real, z: real)

  /** A transform's position and facing (Transform.forward). */
  datatype Pose = Pose(position: Vec3, forward: Vec3)

  const HordeSpeed: real := 9.0
  const HordeStopDistance: real := 2.5
  /** The squared-length threshold below which a direction counts as zero. */
  const Epsilon: real := 0.0001

  const Zero := Vec3(0.0, 0.0, 0.0)

  function Add(a: Vec3, b: Vec3): Vec3
  {
    Vec3(a.x + b.x, a.y + b.y, a.z + b.z)
  }

  function Scale(v: Vec3, k: real): Vec3
  {
    Vec3(v.x * k, v.y * k, v.z * k)
  }

  function SqrMagnitude(v: Vec3): real
  {
    v.x * v.x + v.y * v.y + v.z * v.z
  }

  function Dot(a: Vec3, b: Vec3): real
  {
    a.x * b.x + a.y * b.y + a.z * b.z
  }

  /** The offset from `from` to `to` with its vertical component zeroed. */
  function PlanarOffset(from: Vec3, to: Vec3): (d: Vec3)
    ensures d.y == 0.0
  {
    Vec3(to.x - from.x, 0.0, to.z - from.z)
  }

  /** Inside the stop radius: the squared planar distance is at most 2.5 squared. */
  predicate Arrived(pose: Pose, target: Vec3)
  {
    SqrMagnitude(PlanarOffset(pose.position, target)) <= HordeStopDistance * HordeStopDistance
  }

  /** One enemy's step toward `target`; `stride` is Time.deltaTime times HordeSpeed. */
  function StepEnemy(pose: Pose, target: Vec3, stride: real, invLength: real -> real): (r: Pose)
    // an enemy inside the stop radius is left alone
    ensures Arrived(pose, target) ==> r == pose
    // movement never changes the height
    ensures r.position.y == pose.position.y
    // the displacement is parallel to the planar offset toward the player
    ensures var d := PlanarOffset(pose.position, target);
            (r.position.x - pose.position.x) * d.z == (r.position.z - pose.position.z) * d.x
    // a new facing is horizontal and not near zero
    ensures r.forward != pose.forward ==> r.forward.y == 0.0 && SqrMagnitude(r.forward) > Epsilon
    // with a positive normalisation factor, a positive stride moves toward the player ...
    ensures var d := PlanarOffset(pose.position, target);
            !Arrived(pose, target) && invLength(SqrMagnitude(d)) > 0.0 && stride > 0.0 ==>
              Dot(Vec3(r.position.x - pose.position.x, 0.0, r.position.z - pose.position.z), d) > 0.0
    // ... and a new facing points toward the player
    ensures var d := PlanarOffset(pose.position, target);
            r.forward != pose.forward && invLength(SqrMagnitude(d)) > 0.0 ==> Dot(r.forward, d) > 0.0
  {
    var offset := PlanarOffset(pose.position, target);
    var sqr := SqrMagnitude(offset);
    if sqr <= HordeStopDistance * HordeStopDistance then pose
    else
      var dir := if sqr > Epsilon then Scale(offset, invLength(sqr)) else Zero;
      var moved := Add(pose.position, Scale(dir, stride));
      TowardOffset(offset, invLength(sqr), stride);
      Pose(moved, if SqrMagnitude(dir) > Epsilon then dir else pose.forward)
  }

  /** A positive multiple of a horizontal non-zero offset, scaled again by a positive stride, points along it. */
  lemma TowardOffset(d: Vec3, k: real, stride: real)
    requires d.y == 0.0
    ensures SqrMagnitude(d) > 0.0 && k > 0.0 ==> Dot(Scale(d, k), d) > 0.0
    ensures SqrMagnitude(d) > 0.0 && k > 0.0 && stride > 0.0 ==> Dot(Scale(Scale(d, k), stride), d) > 0.0
  {
    var sqr := SqrMagnitude(d);
    assert Dot(Scale(d, k), d) == k * sqr;
    assert Dot(Scale(Scale(d, k), stride), d) == (k * stride) * sqr;
    if sqr > 0.0 && k > 0.0 {
      assert k * sqr > 0.0;
      if stride > 0.0 {
        assert k * stride > 0.0;
      }
    }
  }

  /** Scaling a vector by `k` scales its squared length by k squared. */
  lemma ScaledSqrMagnitude(v: Vec3, k: real)
    ensures SqrMagnitude(Scale(v, k)) == k * k * SqrMagnitude(v)
  {
    assert (v.x * k) * (v.x * k) == k * k * (v.x * v.x);
    assert (v.y * k) * (v.y * k) == k * k * (v.y * v.y);
    assert (v.z * k) * (v.z * k) == k * k * (v.z * v.z);
  }

  /**
   When invLength really is the inverse length, an enemy outside the stop
   radius moves exactly `stride` in the plane and turns to face its direction.
   */
  lemma ExactStride(pose: Pose, target: Vec3, stride: real, invLength: real -> real)
    requires !Arrived(pose, target)
    requires var sqr := SqrMagnitude(PlanarOffset(pose.position, target));
             invLength(sqr) > 0.0 && invLength(sqr) * invLength(sqr) * sqr == 1.0
    ensures var r := StepEnemy(pose, target, stride, invLength);
            var move := Vec3(r.position.x - pose.position.x, 0.0, r.position.z - pose.position.z);
            SqrMagnitude(move) == stride * stride
            && SqrMagnitude(r.forward) == 1.0
    // the enemy turns to face the player along the normalised offset
    ensures var d := PlanarOffset(pose.position, target);
            StepEnemy(pose, target, stride, invLength).forward == Scale(d, invLength(SqrMagnitude(d)))
  {
    var offset := PlanarOffset(pose.position, target);
    var sqr := SqrMagnitude(offset);
    var dir := Scale(offset, invLength(sqr));
    ScaledSqrMagnitude(offset, invLength(sqr));
    var r := StepEnemy(pose, target, stride, invLength);
    assert r == Pose(Add(pose.position, Scale(dir, stride)), dir);
    var move := Vec3(r.position.x - pose.position.x, 0.0, r.position.z - pose.position.z);
    assert move == Scale(dir, stride);
    ScaledSqrMagnitude(dir, stride);
  }

  /** The enemies in list order, each stepping from where the earlier steps left the world. */
  function ChaseAll<H>(world: map<H, Pose>, target: Vec3, enemies: seq<H>, stride: real, invLength: real -> real)
    : (r: map<H, Pose>)
    ensures r.Keys == world.Keys
    // transforms not in the list do not move
    ensures forall h :: h in world && h !in enemies ==> r[h] == world[h]
    decreases |enemies|
  {
    if enemies == [] then world
    else
      var e := enemies[0];
      // a destroyed transform (missing from the world) is skipped
      var next := if e in world then world[e := StepEnemy(world[e], target, stride, invLength)] else world;
      ChaseAll(next, target, enemies[1..], stride, invLength)
  }

  /** With no duplicates in the list, every live enemy takes exactly one step from its starting pose. */
  lemma {:induction false} ChaseStepsEachOnce<H>(world: map<H, Pose>, target: Vec3, enemies: seq<H>, stride: real, invLength: real -> real)
    requires NoDuplicates(enemies)
    ensures forall h :: h in world && h in enemies ==>
              ChaseAll(world, target, enemies, stride, invLength)[h] == StepEnemy(world[h], target, stride, invLength)
    decreases |enemies|
  {
    if enemies != [] {
      var e := enemies[0];
      var next := if e in world then world[e := StepEnemy(world[e], target, stride, invLength)] else world;
      assert NoDuplicates(enemies[1..]);
      ChaseStepsEachOnce(next, target, enemies[1..], stride, invLength);
      forall h | h in world && h in enemies
        ensures ChaseAll(world, target, enemies, stride, invLength)[h] == StepEnemy(world[h], target, stride, invLength)
      {
        if h == e {
          assert h !in enemies[1..];
        } else {
          assert h in enemies[1..];
        }
      }
    }
  }

  /** DoHordeChaseStep: no player (or a destroyed one) means nothing moves. */
  function ChaseStep<H>(world: map<H, Pose>, player: Option<H>, enemies: seq<H>, deltaTime: real, invLength: real -> real)
    : (r: map<H, Pose>)
    ensures player.None? || player.value !in world ==> r == world
    ensures r.Keys == world.Keys
    ensures forall h :: h in world && h !in enemies ==> r[h] == world[h]
    ensures forall h :: h in world ==> r[h].position.y == world[h].position.y
    // with a live player and no duplicates, each listed enemy takes one step of HordeSpeed × deltaTime
    // toward where the player stood when the step began
    ensures player.Some? && player.value in world && NoDuplicates(enemies) ==>
              forall h :: h in world && h in enemies ==>
                r[h] == StepEnemy(world[h], world[player.value].position, deltaTime * HordeSpeed, invLength)
  {
    if player.None? || player.value !in world then world
    else
      var r := ChaseAll(world, world[player.value].position, enemies, deltaTime * HordeSpeed, invLength);
      ChaseKeepsHeights(world, world[player.value].position, enemies, deltaTime * HordeSpeed, invLength);
      EachOnceIfDistinct(world, world[player.value].position, enemies, deltaTime * HordeSpeed, invLength);
      r
  }

  /** ChaseStepsEachOnce, for a list that may hold duplicates. */
  lemma EachOnceIfDistinct<H>(world: map<H, Pose>, target: Vec3, enemies: seq<H>, stride: real, invLength: real -> real)
    ensures NoDuplicates(enemies) ==>
              forall h :: h in world && h in enemies ==>
                ChaseAll(world, target, enemies, stride, invLength)[h] == StepEnemy(world[h], target, stride, invLength)
  {
    if NoDuplicates(enemies) {
      ChaseStepsEachOnce(world, target, enemies, stride, invLength);
    }
  }

  /** No step changes any transform's height. */
  lemma {:induction false} ChaseKeepsHeights<H>(world: map<H, Pose>, target: Vec3, enemies: seq<H>, stride: real, invLength: real -> real)
    ensures forall h :: h in world ==> ChaseAll(world, target, enemies, stride, invLength)[h].position.y == world[h].position.y
    decreases |enemies|
  {
    if enemies != [] {
      var e := enemies[0];
      var next := if e in world then world[e := StepEnemy(world[e], target, stride, invLength)] else world;
      ChaseKeepsHeights(next, target, enemies[1..], stride, invLength);
    }
  }
}

=== FILE: horde.dfy ===
/**
 HordeModeController's timed lifecycle as pure step functions over an
 immutable controller record and explicit timestamps (Time.time, seconds).

 A frame runs Update, then resumes the TriggerHordeWave coroutines whose
 WaitForSeconds has elapsed (Unity resumes them after every Update and
 before LateUpdate), then LateUpdate. A suspended coroutine is its due time
 in `pending`.
 */
module Horde {
  import opened Options
  import opened SceneRules
  import opened Binding
  import opened Scanner
  import opened Chase

  /** Identity of a Unity Transform. */
  type Handle = nat

  const ScanInterval: real := 3.0
  const BannerSeconds: real := 3.0
  const ActivationDelay: real := 1.5

  datatype Controller = Controller(
    player: Option<Handle>,     // _playerTransform
    enemies: seq<Handle>,       // _enemies
    nextScanTime: real,         // _nextScanTime
    hordeActive: bool,          // _hordeActive
    hordeEndTime: real,         // _hordeEndTime
    messageUntil: real,         // _hordeMessageUntil
    playerBinder: PlayerBinder,
    trackerBinder: TrackerBinder,
    pending: seq<real>)         // due times of suspended TriggerHordeWave coroutines

  /** The freshly added component: every field at its default. */
  const Initial := Controller(None, [], 0.0, false, 0.0, 0.0, PlayerUnbound, TrackerUnbound, [])

  /** What the host offers during one frame. */
  datatype Host = Host(scene: string, scan: ScanSource<Handle>)

  /** RescanCharacters applied to the controller: only the player, the list and the two caches change. */
  function Rescan(c: Controller, src: ScanSource<Handle>): (r: Controller)
    ensures r.nextScanTime == c.nextScanTime && r.hordeActive == c.hordeActive
    ensures r.hordeEndTime == c.hordeEndTime && r.messageUntil == c.messageUntil && r.pending == c.pending
    ensures !r.trackerBinder.bound ==> r.enemies == []
    // the new player, list and caches are those RescanCharacters computes
    ensures r.player == FindPlayer(c.playerBinder, src.player).player
    ensures r.playerBinder == BindPlayer(c.playerBinder, src.player.probe).binder
    ensures r.trackerBinder == BindTracker(c.trackerBinder, src.tracker).binder
    ensures r.trackerBinder.bound && src.liveEnemies.Some? ==>
              r.enemies == Kept(r.player, src.isChildOf, src.liveEnemies.value)
    ensures src.liveEnemies.None? ==> r.enemies == []
    ensures NoDuplicates(r.enemies)
    ensures forall t :: t in r.enemies ==> !TiedToPlayer(r.player, src.isChildOf, t)
  {
    var s := RescanCharacters(c.playerBinder, c.trackerBinder, src);
    c.(player := s.player, enemies := s.enemies, playerBinder := s.playerBinder, trackerBinder := s.trackerBinder)
  }

  /** The rescan found a player and at least one enemy. */
  predicate Ready(c: Controller): (ready: bool)
    ensures ready <==> c.player.Some? && c.enemies != []
  {
    c.player.Some? && |c.enemies| > 0
  }

  /**
   The synchronous part of TriggerHordeWave, up to its WaitForSeconds: in a
   permitted scene it rescans and, when the rescan found a player and
   enemies, raises the banner and schedules the activation.
   */
  function Trigger(c: Controller, now: real, h: Host): (r: Controller)
    // outside the permitted scenes nothing changes
    ensures !IsZeroZone(h.scene) ==> r == c
    // inside, the rescan always happens
    ensures IsZeroZone(h.scene) ==>
              r.player == Rescan(c, h.scan).player && r.enemies == Rescan(c, h.scan).enemies
              && r.playerBinder == Rescan(c, h.scan).playerBinder && r.trackerBinder == Rescan(c, h.scan).trackerBinder
    // no player or no enemies: banner and schedule untouched
    ensures !(IsZeroZone(h.scene) && Ready(r)) ==> r.messageUntil == c.messageUntil && r.pending == c.pending
    // success: banner until now + 3, one more activation due at now + 1.5
    ensures IsZeroZone(h.scene) && Ready(r) ==>
              r.messageUntil == now + BannerSeconds && r.pending == c.pending + [now + ActivationDelay]
    // nothing guards against an active horde, and the trigger itself activates nothing
    ensures r.hordeActive == c.hordeActive && r.hordeEndTime == c.hordeEndTime && r.nextScanTime == c.nextScanTime
  {
    if !IsZeroZone(h.scene) then c
    else
      var s := Rescan(c, h.scan);
      if !Ready(s) then s
      else s.(messageUntil := now + BannerSeconds, pending := s.pending + [now + ActivationDelay])
  }

  /** The periodic scan is due: no horde is running and the scan time has come. */
  predicate ScanDue(c: Controller, now: real)
  {
    !c.hordeActive && now >= c.nextScanTime
  }

  /** Update: the periodic scan when due, then the F7 trigger when the key went down this frame. */
  function Update(c: Controller, now: real, keyDown: bool, h: Host): (r: Controller)
    ensures r.hordeActive == c.hordeActive && r.hordeEndTime == c.hordeEndTime
    ensures !ScanDue(c, now) && !keyDown ==> r == c
    ensures ScanDue(c, now) ==> r.nextScanTime == now + ScanInterval
    ensures !ScanDue(c, now) ==> r.nextScanTime == c.nextScanTime
    ensures r.nextScanTime >= c.nextScanTime || ScanDue(c, now)
    // a due scan rescans; a key press runs the trigger, after the scan when both happen
    ensures ScanDue(c, now) && !keyDown ==> r == Rescan(c.(nextScanTime := now + ScanInterval), h.scan)
    ensures !ScanDue(c, now) && keyDown ==> r == Trigger(c, now, h)
    ensures ScanDue(c, now) && keyDown ==> r == Trigger(Rescan(c.(nextScanTime := now + ScanInterval), h.scan), now, h)
  {
    var scanned := if ScanDue(c, now) then Rescan(c.(nextScanTime := now + ScanInterval), h.scan) else c;
    if keyDown then Trigger(scanned, now, h) else scanned
  }

  /** The tail of TriggerHordeWave after its delay: the horde runs for the current scene's duration. */
  function Activate(c: Controller, now: real, scene: string): (r: Controller)
    ensures r.hordeActive
    ensures r.hordeEndTime == now + HordeDuration(scene)
    ensures r.hordeEndTime >= now + BaseDuration
    ensures r.enemies == c.enemies && r.player == c.player && r.messageUntil == c.messageUntil
    // the coroutine's tail writes only the two horde fields
    ensures r.nextScanTime == c.nextScanTime && r.pending == c.pending
    ensures r.playerBinder == c.playerBinder && r.trackerBinder == c.trackerBinder
  {
    c.(hordeActive := true, hordeEndTime := now + HordeDuration(scene))
  }

  /** The due times still waiting at `now`. */
  function StillWaiting(pending: seq<real>, now: real): (r: seq<real>)
    ensures forall t :: t in r <==> t in pending && t > now
    ensures |r| <= |pending|
  {
    if pending == [] then []
    else (if pending[0] > now then [pending[0]] else []) + StillWaiting(pending[1..], now)
  }

  /** Some coroutine's delay has elapsed at `now`. */
  predicate SomeDue(pending: seq<real>, now: real)
  {
    exists i :: 0 <= i < |pending| && pending[i] <= now
  }

  /**
   Resume every coroutine whose delay has elapsed. All of them run
   Activate with the same time and scene, so they act as one (see
   ActivateIsIdempotent).
   */
  function ResumeDue(c: Controller, now: real, scene: string): (r: Controller)
    ensures forall t :: t in r.pending <==> t in c.pending && t > now
    ensures SomeDue(c.pending, now) ==> r.hordeActive && r.hordeEndTime == now + HordeDuration(scene)
    ensures !SomeDue(c.pending, now) ==> r == c
    ensures r.player == c.player && r.enemies == c.enemies && r.messageUntil == c.messageUntil
    ensures r.nextScanTime == c.nextScanTime && r.playerBinder == c.playerBinder && r.trackerBinder == c.trackerBinder
  {
    if SomeDue(c.pending, now) then
      Activate(c.(pending := StillWaiting(c.pending, now)), now, scene)
    else
      assert StillWaiting(c.pending, now) == c.pending by {
        StillWaitingKeepsAll(c.pending, now);
      }
      c
  }

  lemma {:induction false} StillWaitingKeepsAll(pending: seq<real>, now: real)
    requires !SomeDue(pending, now)
    ensures StillWaiting(pending, now) == pending
    decreases |pending|
  {
    if pending != [] {
      assert !SomeDue(pending[1..], now) by {
        forall i | 0 <= i < |pending[1..]|
          ensures pending[1..][i] > now
        {
          assert pending[1..][i] == pending[i + 1];
        }
      }
      StillWaitingKeepsAll(pending[1..], now);
    }
  }

  /** The state after LateUpdate and the transforms' poses after the frame. */
  datatype Late = Late(controller: Controller, world: map<Handle, Pose>)

  /** LateUpdate: an active horde expires strictly after its end time, otherwise it chases. */
  function LateUpdate(c: Controller, now: real, deltaTime: real, world: map<Handle, Pose>, invLength: real -> real)
    : (r: Late)
    ensures !c.hordeActive ==> r == Late(c, world)
    ensures c.hordeActive && now > c.hordeEndTime ==> r == Late(c.(hordeActive := false), world)
    ensures c.hordeActive && now <= c.hordeEndTime ==>
              r.controller == c && r.world == ChaseStep(world, c.player, c.enemies, deltaTime, invLength)
  {
    if !c.hordeActive then Late(c, world)
    else if now > c.hordeEndTime then Late(c.(hordeActive := false), world)
    else Late(c, ChaseStep(world, c.player, c.enemies, deltaTime, invLength))
  }

  /** OnGUI draws the banner unless the time is past _hordeMessageUntil. */
  predicate BannerVisible(c: Controller, now: real): (visible: bool)
    ensures visible <==> now <= c.messageUntil
  {
    !(now > c.messageUntil)
  }

  /** The inputs of one frame. */
  datatype Tick = Tick(now: real, deltaTime: real, keyDown: bool, host: Host)

  /** One frame: Update, the due coroutines, LateUpdate. */
  function Frame(c: Controller, t: Tick, world: map<Handle, Pose>, invLength: real -> real): (r: Late)
    ensures r.world.Keys == world.Keys
  {
    var updated := Update(c, t.now, t.keyDown, t.host);
    var resumed := ResumeDue(updated, t.now, t.host.scene);
    LateUpdate(resumed, t.now, t.deltaTime, world, invLength)
  }
}

=== FILE: lifecycle.dfy ===
/**
 Properties of the horde lifecycle that relate several step functions:
 scan spacing, the delay between trigger and activation, the banner window,
 re-triggering during a running horde, and a full two-frame scenario.
 */
module HordeLifecycle {
  import opened Options
  import opened Text
  import opened SceneRules
  import opened Binding
  import opened Scanner
  import opened Chase
  import opened Horde

  /** A trigger that got past both of its checks. */
  predicate Launched(c: Controller, now: real, h: Host)
  {
    IsZeroZone(h.scene) && Ready(Trigger(c, now, h))
  }

  /** After an Update at `t` that ran the periodic scan, a key-less Update before t + 3 changes nothing. */
  lemma ScansAreSpaced(c: Controller, t: real, h: Host, t': real, h': Host)
    requires ScanDue(c, t)
    requires t' < t + ScanInterval
    ensures Update(Update(c, t, false, h), t', false, h') == Update(c, t, false, h)
  {
  }

  /** From the activation time on, the scheduled coroutine starts the horde for the scene of that moment. */
  lemma ActivationAfterDelay(c: Controller, t: real, h: Host, now: real, scene: string)
    requires Launched(c, t, h)
    requires now >= t + ActivationDelay
    ensures ResumeDue(Trigger(c, t, h), now, scene).hordeActive
    ensures ResumeDue(Trigger(c, t, h), now, scene).hordeEndTime == now + HordeDuration(scene)
  {
    var fired := Trigger(c, t, h);
    assert fired.pending[|c.pending|] == t + ActivationDelay;
    assert SomeDue(fired.pending, now);
  }

  /** Before the delay has elapsed nothing is activated (when no earlier trigger is pending). */
  lemma NoActivationBeforeDelay(c: Controller, t: real, h: Host, now: real, scene: string)
    requires Launched(c, t, h)
    requires c.pending == []
    requires now < t + ActivationDelay
    ensures ResumeDue(Trigger(c, t, h), now, scene) == Trigger(c, t, h)
  {
    var fired := Trigger(c, t, h);
    assert fired.pending == [t + ActivationDelay];
  }

  /** The banner of a successful trigger at `t` shows exactly until t + 3. */
  lemma BannerWindowAfterTrigger(c: Controller, t: real, h: Host, now: real)
    requires Launched(c, t, h)
    ensures BannerVisible(Trigger(c, t, h), now) <==> now <= t + BannerSeconds
  {
  }

  /**
   Triggering during a running horde is not refused: it rescans, raises the
   banner again and schedules another activation, which restarts the end
   time from the activation moment, whether that is later or earlier than
   the old end time.
   */
  lemma RetriggerWhileActive(c: Controller, t: real, h: Host, now: real, scene: string)
    requires c.hordeActive
    requires Launched(c, t, h)
    requires now >= t + ActivationDelay
    ensures Trigger(c, t, h).hordeActive
    ensures Trigger(c, t, h).enemies == Rescan(c, h.scan).enemies
    ensures |Trigger(c, t, h).pending| == |c.pending| + 1
    ensures ResumeDue(Trigger(c, t, h), now, scene).hordeEndTime == now + HordeDuration(scene)
  {
    ActivationAfterDelay(c, t, h, now, scene);
  }

  /** Two coroutines resumed in one frame leave the same state as one. */
  lemma ActivateIsIdempotent(c: Controller, now: real, scene: string)
    ensures Activate(Activate(c, now, scene), now, scene) == Activate(c, now, scene)
  {
  }

  /** A LateUpdate at exactly the end time still chases; any LateUpdate after it ends the horde without moving anyone. */
  lemma ExpiryIsStrict(c: Controller, deltaTime: real, world: map<Handle, Pose>, invLength: real -> real, later: real)
    requires c.hordeActive
    requires later > c.hordeEndTime
    ensures LateUpdate(c, c.hordeEndTime, deltaTime, world, invLength).controller.hordeActive
    ensures LateUpdate(c, c.hordeEndTime, deltaTime, world, invLength).world ==
            ChaseStep(world, c.player, c.enemies, deltaTime, invLength)
    ensures !LateUpdate(c, later, deltaTime, world, invLength).controller.hordeActive
    ensures LateUpdate(c, later, deltaTime, world, invLength).world == world
  {
  }

  /**
   LateUpdate moves only listed enemies and touches no field but the active
   flag, and the flag only goes from on to off.
   */
  lemma LateUpdateMovesOnlyEnemies(c: Controller, now: real, deltaTime: real, world: map<Handle, Pose>, invLength: real -> real)
    ensures var r := LateUpdate(c, now, deltaTime, world, invLength);
            r.world.Keys == world.Keys
            && (forall h :: h in world && h !in c.enemies ==> r.world[h] == world[h])
            && r.controller == c.(hordeActive := r.controller.hordeActive)
            && (r.controller.hordeActive ==> c.hordeActive)
  {
  }

  /** Once a LateUpdate has ended the horde, later LateUpdates move nothing until something activates it again. */
  lemma ExpiredHordeStaysStill(c: Controller, now: real, deltaTime: real, world: map<Handle, Pose>, invLength: real -> real,
                               later: real, deltaTime': real, world': map<Handle, Pose>)
    requires c.hordeActive && now > c.hordeEndTime
    ensures var stopped := LateUpdate(c, now, deltaTime, world, invLength).controller;
            LateUpdate(stopped, later, deltaTime', world', invLength) == Late(stopped, world')
  {
  }

  /** Triggering in "Level_City" changes nothing: no rescan, no banner, no activation. */
  lemma LevelCityTriggerIsIgnored(c: Controller, t: real, h: Host)
    requires h.scene == "Level_City"
    ensures Trigger(c, t, h) == c
  {
    LevelCityIsNotPermitted(h.scene);
  }

  /** A host whose player is CharacterMainControl.Main = 0 and whose tracker lists enemies 1, 2 and 3. */
  ghost predicate ThreeEnemyHost(src: ScanSource<Handle>)
  {
    && src.player.probe == PlayerProbe(true, true, false, false, true)
    && src.player.propertyValue == Some(0)
    && src.tracker == TrackerProbe(true, false, true, true, true)
    && src.liveEnemies == Some([Character(1), Character(2), Character(3)])
    && forall a: Handle, b: Handle :: !src.isChildOf(a, b)
  }

  lemma ThreeTransforms(es: seq<Entry<Handle>>)
    requires es == [Character(1), Character(2), Character(3)]
    ensures Readable(es) == es
    ensures Transforms(es) == [1, 2, 3]
  {
    ReadableIsPrefixUpTo(es, 3);
    assert es[..3] == es;
    var e1: seq<Entry<Handle>> := [Character(1)];
    var e2: seq<Entry<Handle>> := [Character(1), Character(2)];
    TransformsSnoc([], Character(1));
    assert [] + [Character(1)] == e1;
    TransformsSnoc(e1, Character(2));
    assert e1 + [Character(2)] == e2;
    TransformsSnoc(e2, Character(3));
    assert e2 + [Character(3)] == es;
  }

  lemma ThreeKept(rel: (Handle, Handle) -> bool, ts: seq<Handle>)
    requires forall a: Handle, b: Handle :: !rel(a, b)
    requires ts == [1, 2, 3]
    ensures Dedup(Unrelated(Some(0), rel, ts)) == ts
  {
    UnrelatedKeepsAll(Some(0), rel, ts);
    DedupOfDistinct(ts);
  }

  /** From an untried state, the three-enemy host yields player 0 and enemies [1, 2, 3], and binds both caches. */
  lemma ThreeEnemyScan(c: Controller, src: ScanSource<Handle>)
    requires ThreeEnemyHost(src)
    requires !c.playerBinder.bound && !c.playerBinder.tried
    requires !c.trackerBinder.bound && !c.trackerBinder.tried
    ensures Rescan(c, src).player == Some(0)
    ensures Rescan(c, src).enemies == [1, 2, 3]
    ensures Rescan(c, src).playerBinder.bound && Rescan(c, src).playerBinder.mainProperty
    ensures Rescan(c, src).trackerBinder.bound
  {
    ThreeTransforms(src.liveEnemies.value);
    ThreeKept(src.isChildOf, [1, 2, 3]);
  }

  /** With both caches bound, the three-enemy host yields the same player and enemies again. */
  lemma ThreeEnemyRescan(c: Controller, src: ScanSource<Handle>)
    requires ThreeEnemyHost(src)
    requires c.playerBinder.bound && c.playerBinder.mainProperty && c.trackerBinder.bound
    ensures Rescan(c, src).player == Some(0)
    ensures Rescan(c, src).enemies == [1, 2, 3]
  {
    ThreeTransforms(src.liveEnemies.value);
    ThreeKept(src.isChildOf, [1, 2, 3]);
  }

  /**
   A controller that has not scanned or bound anything by `now`, has no horde
   running and no activation waiting; `Initial` is one for every `now >= 0`.
   */
  predicate Unstarted(c: Controller, now: real)
  {
    && !c.hordeActive && c.pending == [] && c.nextScanTime <= now
    && !c.playerBinder.bound && !c.playerBinder.tried
    && !c.trackerBinder.bound && !c.trackerBinder.tried
  }

  /** The freshly added component has not started at any time from 0 on. */
  lemma InitialIsUnstarted(now: real)
    requires now >= 0.0
    ensures Unstarted(Initial, now)
  {
  }

  /** The Update of the scenario's first frame: the periodic scan, then a successful F7 trigger. */
  lemma FarmMainFirstUpdate(c: Controller, h: Host)
    requires Unstarted(c, 10.0)
    requires FarmScene(h.scene)
    requires ThreeEnemyHost(h.scan)
    ensures var u := Update(c, 10.0, true, h);
            && u.messageUntil == 13.0
            && u.pending == [11.5]
            && !u.hordeActive
            && u.nextScanTime == 13.0
            && u.player == Some(0)
            && u.enemies == [1, 2, 3]
  {
    FarmMainIsPermittedForFortyFive(h.scene);
    var scanned := Rescan(c.(nextScanTime := 13.0), h.scan);
    ThreeEnemyScan(c.(nextScanTime := 13.0), h.scan);
    ThreeEnemyRescan(scanned, h.scan);
  }

  /** A frame whose Update leaves no horde running and no coroutine due ends with that Update's state. */
  lemma QuietFrame(c: Controller, t: Tick, world: map<Handle, Pose>, invLength: real -> real, u: Controller)
    requires u == Update(c, t.now, t.keyDown, t.host)
    requires !u.hordeActive
    requires forall i :: 0 <= i < |u.pending| ==> u.pending[i] > t.now
    ensures Frame(c, t, world, invLength) == Late(u, world)
  {
    assert !SomeDue(u.pending, t.now);
  }

  /** The first frame of the scenario ends with the state its Update left. */
  lemma FarmMainFirstFrame(c: Controller, h: Host, world: map<Handle, Pose>, invLength: real -> real)
    requires var u := Update(c, 10.0, true, h);
             && u.messageUntil == 13.0 && u.pending == [11.5] && !u.hordeActive
             && u.nextScanTime == 13.0 && u.player == Some(0) && u.enemies == [1, 2, 3]
    ensures var first := Frame(c, Tick(10.0, 0.02, true, h), world, invLength).controller;
            && first.messageUntil == 13.0 && first.pending == [11.5] && !first.hordeActive
            && first.nextScanTime == 13.0 && first.player == Some(0) && first.enemies == [1, 2, 3]
  {
    // no coroutine is due and no horde runs yet, so the first frame ends with Update's state
    QuietFrame(c, Tick(10.0, 0.02, true, h), world, invLength, Update(c, 10.0, true, h));
  }

  /**
   Second frame of the scenario: at t = 11.5, with no scan due and no key
   pressed, the waiting coroutine starts a 45-second horde that chases in
   the same frame.
   */
  lemma FarmMainSecondFrame(first: Controller, h: Host, world: map<Handle, Pose>, invLength: real -> real)
    requires FarmScene(h.scene)
    requires first.messageUntil == 13.0 && first.pending == [11.5] && !first.hordeActive
    requires first.nextScanTime == 13.0 && first.player == Some(0) && first.enemies == [1, 2, 3]
    ensures var second := Frame(first, Tick(11.5, 0.02, false, h), world, invLength);
            && second.controller.hordeActive
            && second.controller.hordeEndTime == 56.5
            && BannerVisible(second.controller, 11.5)
            && !BannerVisible(second.controller, 13.5)
            && second.world == ChaseStep(world, Some(0), [1, 2, 3], 0.02, invLength)
  {
    FarmMainIsPermittedForFortyFive(h.scene);
    assert first.pending[0] <= 11.5;
  }

  /**
   "Level_Farm_Main", F7 pressed at t = 10 in the first frame of a controller
   that has not started yet (such as the freshly added one), three enemies
   found: the banner shows until 13, the horde starts in the frame at 11.5
   and runs until 11.5 + 45 = 56.5, chasing from that very frame.
   */
  lemma FarmMainScenario(c: Controller, h: Host, world: map<Handle, Pose>, invLength: real -> real, world': map<Handle, Pose>)
    requires Unstarted(c, 10.0)
    requires FarmScene(h.scene)
    requires ThreeEnemyHost(h.scan)
    ensures var first := Frame(c, Tick(10.0, 0.02, true, h), world, invLength).controller;
            && first.messageUntil == 13.0
            && first.pending == [11.5]
            && !first.hordeActive
            && first.enemies == [1, 2, 3]
            && var second := Frame(first, Tick(11.5, 0.02, false, h), world', invLength);
               && second.controller.hordeActive
               && second.controller.hordeEndTime == 56.5
               && BannerVisible(second.controller, 11.5)
               && !BannerVisible(second.controller, 13.5)
               && second.world == ChaseStep(world', Some(0), [1, 2, 3], 0.02, invLength)
  {
    FarmMainFirstUpdate(c, h);
    FarmMainFirstFrame(c, h, world, invLength);
    FarmMainSecondFrame(Frame(c, Tick(10.0, 0.02, true, h), world, invLength).controller, h, world', invLength);
  }

  /** The scene name of the scenario. */
  ghost predicate FarmScene(name: string)
  {
    name == "Level_Farm_Main"
  }
}

=== FILE: options.dfy ===
/** The optional value used for Unity references that may be null. */
module Options {

  datatype Option<+T> = None | Some(value: T)
}

=== FILE: scanner.dfy ===
/**
 RescanCharacters: find the player (FindPlayerTransform) and rebuild the
 enemy list from EnemyTracker.GetLiveEnemies. Handles are an opaque type
 `H` standing for Unity Transforms; Transform.IsChildOf is a relation
 supplied by the host.
 */
module Scanner {
  import opened Options
  import opened Binding

  /**
   One element of the GetLiveEnemies enumeration, as the scan loop sees it:
   a null element, an EnemyInfo whose `character` is not a Component (or
   has no transform), a character with its transform, or an element whose
   `character` read throws, which ends the scan.
   */
  datatype Entry<H> = NullEntry | NotCharacter | Character(transform: H) | Faulty

  /** What one FindPlayerTransform call can read from the host. */
  datatype PlayerSource<H> = PlayerSource(
    probe: PlayerProbe,
    propertyValue: Option<H>,  // transform of the component CharacterMainControl.Main (property) yields
    fieldValue: Option<H>,     // transform of the component CharacterMainControl.Main (field) yields
    cameraRoot: Option<H>)     // root transform of Camera.main

  /** What one RescanCharacters call can read from the host. */
  datatype ScanSource<!H> = ScanSource(
    player: PlayerSource<H>,
    tracker: TrackerProbe,
    liveEnemies: Option<seq<Entry<H>>>,  // None: the Invoke threw or did not return an IEnumerable
    isChildOf: (H, H) -> bool)

  datatype Found<H> = Found(binder: PlayerBinder, player: Option<H>)

  /** FindPlayerTransform: CharacterMainControl.Main if it can be bound and read, else the camera root. */
  function FindPlayer<H>(b: PlayerBinder, src: PlayerSource<H>): (r: Found<H>)
    ensures r.binder == BindPlayer(b, src.probe).binder
    ensures !BindPlayer(b, src.probe).ok ==> r.player == src.cameraRoot
    ensures r.player == src.propertyValue || r.player == src.fieldValue || r.player == src.cameraRoot
    ensures r.player.None? ==> src.cameraRoot.None?
    // the property is preferred over the field; a null Main falls back to the camera root
    ensures BindPlayer(b, src.probe).ok && r.binder.mainProperty ==>
              r.player == (if src.propertyValue.Some? then src.propertyValue else src.cameraRoot)
    ensures BindPlayer(b, src.probe).ok && !r.binder.mainProperty && r.binder.mainField ==>
              r.player == (if src.fieldValue.Some? then src.fieldValue else src.cameraRoot)
  {
    var bind := BindPlayer(b, src.probe);
    var main :=
      if !bind.ok then None
      else if bind.binder.mainProperty then src.propertyValue
      else if bind.binder.mainField then src.fieldValue
      else None;
    Found(bind.binder, if main.Some? then main else src.cameraRoot)
  }

  /**
   In terms of the host's own type: once a search finds CharacterMainControl,
   its Main property is read if it has one, else its Main field, and the
   camera root stands in for a missing member or a null Main.
   */
  lemma FindPlayerReadsHostMain<H>(b: PlayerBinder, src: PlayerSource<H>)
    requires !b.bound && !(b.tried && !b.typeKnown) && !src.probe.lookupThrows
    requires b.typeKnown || src.probe.directFinds || src.probe.scanFinds
    ensures var r := FindPlayer(b, src);
            if src.probe.hasMainProperty then
              r.player == (if src.propertyValue.Some? then src.propertyValue else src.cameraRoot)
            else if src.probe.hasMainField then
              r.player == (if src.fieldValue.Some? then src.fieldValue else src.cameraRoot)
            else
              r.player == src.cameraRoot
  {
  }

  ghost predicate NoDuplicates<T>(xs: seq<T>)
  {
    forall i, j :: 0 <= i < j < |xs| ==> xs[i] != xs[j]
  }

  /** The entries read before the first one whose read throws. */
  function Readable<H>(es: seq<Entry<H>>): (r: seq<Entry<H>>)
    ensures r <= es
    ensures forall k :: 0 <= k < |r| ==> !r[k].Faulty?
    ensures |r| < |es| ==> es[|r|].Faulty?
  {
    if es == [] then []
    else if es[0].Faulty? then []
    else [es[0]] + Readable(es[1..])
  }

  /** The readable prefix is the one that stops at the first faulty entry. */
  lemma {:induction false} ReadableIsPrefixUpTo<H>(es: seq<Entry<H>>, n: int)
    requires 0 <= n <= |es|
    requires forall k :: 0 <= k < n ==> !es[k].Faulty?
    requires n == |es| || es[n].Faulty?
    ensures Readable(es) == es[..n]
  {
    var r := Readable(es);
    assert |r| == n;
  }

  /** The character transforms among the entries, in enumeration order; its length is liveCount. */
  function Transforms<H>(es: seq<Entry<H>>): (ts: seq<H>)
    ensures |ts| <= |es|
  {
    if es == [] then []
    else
      var last := es[|es| - 1];
      assert es == es[..|es| - 1] + [last];
      Transforms(es[..|es| - 1]) + (if last.Character? then [last.transform] else [])
  }

  /** The transforms are exactly those of the character entries. */
  lemma {:induction false} TransformsAreCharacters<H>(es: seq<Entry<H>>, t: H)
    ensures t in Transforms(es) <==> Character(t) in es
    decreases |es|
  {
    if es != [] {
      var init := es[..|es| - 1];
      assert es == init + [es[|es| - 1]];
      TransformsAreCharacters(init, t);
    }
  }

  /** The player itself, or a transform in the player's ancestor/descendant chain. */
  predicate TiedToPlayer<H(==)>(player: Option<H>, isChildOf: (H, H) -> bool, t: H)
  {
    player.Some? && (t == player.value || isChildOf(t, player.value) || isChildOf(player.value, t))
  }

  /** The transforms not tied to the player, in order. */
  function Unrelated<H(==,!new)>(player: Option<H>, isChildOf: (H, H) -> bool, ts: seq<H>): (r: seq<H>)
    ensures |r| <= |ts|
  {
    if ts == [] then []
    else
      var last := ts[|ts| - 1];
      assert ts == ts[..|ts| - 1] + [last];
      Unrelated(player, isChildOf, ts[..|ts| - 1]) + (if TiedToPlayer(player, isChildOf, last) then [] else [last])
  }

  /** A transform survives the filter exactly when it is not tied to the player. */
  lemma {:induction false} UnrelatedMembers<H(!new)>(player: Option<H>, isChildOf: (H, H) -> bool, ts: seq<H>, t: H)
    ensures t in Unrelated(player, isChildOf, ts) <==> t in ts && !TiedToPlayer(player, isChildOf, t)
    decreases |ts|
  {
    if ts != [] {
      var init := ts[..|ts| - 1];
      assert ts == init + [ts[|ts| - 1]];
      UnrelatedMembers(player, isChildOf, init, t);
    }
  }

  /** Each element once, at its first occurrence. */
  function Dedup<H(==,!new)>(xs: seq<H>): (r: seq<H>)
    ensures |r| <= |xs|
    ensures NoDuplicates(r)
    ensures forall x :: x in r <==> x in xs
  {
    if xs == [] then []
    else
      var last := xs[|xs| - 1];
      assert xs == xs[..|xs| - 1] + [last];
      var d := Dedup(xs[..|xs| - 1]);
      if last in d then d else d + [last]
  }

  /** The index of the first occurrence of `x` in `xs`. */
  function FirstIndex<H(==)>(xs: seq<H>, x: H): (k: nat)
    requires x in xs
    ensures k < |xs| && xs[k] == x && x !in xs[..k]
  {
    if xs[0] == x then 0 else 1 + FirstIndex(xs[1..], x)
  }

  /** `x` first occurs in `xs` before `y` does. */
  ghost predicate Before<H>(xs: seq<H>, x: H, y: H)
  {
    x in xs && y in xs && FirstIndex(xs, x) < FirstIndex(xs, y)
  }

  /** Appending does not move the first occurrence of an element already present. */
  lemma FirstIndexAppend<H>(xs: seq<H>, ys: seq<H>, x: H)
    requires x in xs
    ensures FirstIndex(xs + ys, x) == FirstIndex(xs, x)
  {
    var k1 := FirstIndex(xs + ys, x);
    var k2 := FirstIndex(xs, x);
    assert forall i :: 0 <= i < k1 ==> (xs + ys)[..k1][i] != x;
    assert (xs + ys)[k2] == x;
    assert k1 <= k2;
    assert forall i :: 0 <= i < k2 ==> xs[..k2][i] != x;
    assert xs[k1] == (xs + ys)[k1];
  }

  /** An element absent from `xs` first occurs in `xs + [x]` at the end. */
  lemma FirstIndexNew<H>(xs: seq<H>, x: H)
    requires x !in xs
    ensures FirstIndex(xs + [x], x) == |xs|
  {
    var k := FirstIndex(xs + [x], x);
    assert k == |xs|;
  }

  /** A list without duplicates is its own Dedup. */
  lemma {:induction false} DedupOfDistinct<H(!new)>(xs: seq<H>)
    requires NoDuplicates(xs)
    ensures Dedup(xs) == xs
    decreases |xs|
  {
    if xs != [] {
      var init := xs[..|xs| - 1];
      var last := xs[|xs| - 1];
      assert xs == init + [last];
      assert NoDuplicates(init);
      DedupOfDistinct(init);
      assert last !in init by {
        forall k | 0 <= k < |init|
          ensures init[k] != last
        {
          assert init[k] == xs[k];
        }
      }
    }
  }

  /** Dedup lists the elements in the order of their first occurrences. */
  lemma {:induction false} DedupKeepsFirstOccurrenceOrder<H(!new)>(xs: seq<H>)
    ensures forall i, j :: 0 <= i < j < |Dedup(xs)| ==> Before(xs, Dedup(xs)[i], Dedup(xs)[j])
    decreases |xs|
  {
    if xs != [] {
      var init := xs[..|xs| - 1];
      var last := xs[|xs| - 1];
      assert xs == init + [last];
      var d := Dedup(init);
      DedupKeepsFirstOccurrenceOrder(init);
      var r := Dedup(xs);
      forall i, j | 0 <= i < j < |r|
        ensures Before(xs, r[i], r[j])
      {
        FirstIndexAppend(init, [last], r[i]);
        if j < |d| {
          FirstIndexAppend(init, [last], r[j]);
          assert Before(init, d[i], d[j]);
        } else {
          FirstIndexNew(init, last);
        }
      }
    }
  }

  /** When no transform is tied to the player, the filter keeps the whole list. */
  lemma {:induction false} UnrelatedKeepsAll<H(!new)>(player: Option<H>, isChildOf: (H, H) -> bool, ts: seq<H>)
    requires forall k :: 0 <= k < |ts| ==> !TiedToPlayer(player, isChildOf, ts[k])
    ensures Unrelated(player, isChildOf, ts) == ts
    decreases |ts|
  {
    if ts != [] {
      var init := ts[..|ts| - 1];
      assert ts == init + [ts[|ts| - 1]];
      assert forall k :: 0 <= k < |init| ==> init[k] == ts[k];
      UnrelatedKeepsAll(player, isChildOf, init);
    }
  }

  /** Dropping the transforms tied to the player keeps the order of first occurrences. */
  lemma {:induction false} UnrelatedKeepsOrder<H(!new)>(player: Option<H>, isChildOf: (H, H) -> bool, ts: seq<H>)
    ensures forall x, y :: Before(Unrelated(player, isChildOf, ts), x, y) ==> Before(ts, x, y)
    decreases |ts|
  {
    if ts != [] {
      var init := ts[..|ts| - 1];
      var last := ts[|ts| - 1];
      assert ts == init + [last];
      var u := Unrelated(player, isChildOf, init);
      var u' := Unrelated(player, isChildOf, ts);
      UnrelatedKeepsOrder(player, isChildOf, init);
      forall x, y | Before(u', x, y)
        ensures Before(ts, x, y)
      {
        if x in u && y in u {
          FirstIndexAppend(u, u'[|u|..], x);
          FirstIndexAppend(u, u'[|u|..], y);
          assert u' == u + u'[|u|..];
          assert Before(u, x, y);
          FirstIndexAppend(init, [last], x);
          FirstIndexAppend(init, [last], y);
        } else {
          assert u' == u + [last] && y == last;
          UnrelatedMembers(player, isChildOf, init, last);
          UnrelatedMembers(player, isChildOf, init, x);
          FirstIndexNew(init, last);
          FirstIndexAppend(init, [last], x);
        }
      }
    }
  }

  /**
   The enemy list the scan loop builds: the readable character transforms,
   minus those tied to the player, each kept once at its first occurrence.
   */
  function Kept<H(==,!new)>(player: Option<H>, isChildOf: (H, H) -> bool, es: seq<Entry<H>>): (r: seq<H>)
    ensures NoDuplicates(r)
    ensures |r| <= |Transforms(Readable(es))|
    ensures forall t :: t in r <==> Character(t) in Readable(es) && !TiedToPlayer(player, isChildOf, t)
  {
    var ts := Transforms(Readable(es));
    forall t
      ensures t in Unrelated(player, isChildOf, ts) <==> Character(t) in Readable(es) && !TiedToPlayer(player, isChildOf, t)
    {
      TransformsAreCharacters(Readable(es), t);
      UnrelatedMembers(player, isChildOf, ts, t);
    }
    Dedup(Unrelated(player, isChildOf, ts))
  }

  /** The kept enemies appear in the order in which the enumeration first produced them. */
  lemma KeptInFirstOccurrenceOrder<H(!new)>(player: Option<H>, isChildOf: (H, H) -> bool, es: seq<Entry<H>>)
    ensures forall i, j :: 0 <= i < j < |Kept(player, isChildOf, es)| ==>
              Before(Transforms(Readable(es)), Kept(player, isChildOf, es)[i], Kept(player, isChildOf, es)[j])
  {
    var ts := Transforms(Readable(es));
    var u := Unrelated(player, isChildOf, ts);
    DedupKeepsFirstOccurrenceOrder(u);
    UnrelatedKeepsOrder(player, isChildOf, ts);
  }

  /** The enemy list after entry `i`, given the list after the entries before it. */
  function CollectStep<H(==,!new)>(player: Option<H>, isChildOf: (H, H) -> bool, enemies: seq<H>, e: Entry<H>): (r: seq<H>)
    // the list only grows at its end, by at most one transform
    ensures |enemies| <= |r| <= |enemies| + 1 && r[..|enemies|] == enemies
    // the new element is a character's transform, unrelated to the player and not yet listed
    ensures forall t :: t in r <==>
              t in enemies || (e.Character? && t == e.transform && !TiedToPlayer(player, isChildOf, t))
    ensures NoDuplicates(enemies) ==> NoDuplicates(r)
  {
    if e.Character? && !TiedToPlayer(player, isChildOf, e.transform) && e.transform !in enemies
    then enemies + [e.transform]
    else enemies
  }

  /** One more entry extends the reference enemy list as one step of the loop does. */
  lemma KeptPrefixStep<H(!new)>(player: Option<H>, isChildOf: (H, H) -> bool, es: seq<Entry<H>>, i: int)
    requires 0 <= i < |es|
    ensures |Transforms(es[..i + 1])| == |Transforms(es[..i])| + (if es[i].Character? then 1 else 0)
    ensures Dedup(Unrelated(player, isChildOf, Transforms(es[..i + 1]))) ==
            CollectStep(player, isChildOf, Dedup(Unrelated(player, isChildOf, Transforms(es[..i]))), es[i])
  {
    var e := es[i];
    assert es[..i + 1] == es[..i] + [e];
    var ts := Transforms(es[..i]);
    var ts' := Transforms(es[..i + 1]);
    TransformsSnoc(es[..i], e);
    var u := Unrelated(player, isChildOf, ts);
    var d := Dedup(u);
    if e.Character? {
      var t := e.transform;
      assert ts' == ts + [t];
      UnrelatedSnoc(player, isChildOf, ts, t);
      if TiedToPlayer(player, isChildOf, t) {
        assert Unrelated(player, isChildOf, ts') == u;
      } else {
        assert Unrelated(player, isChildOf, ts') == u + [t];
        DedupSnoc(u, t);
      }
    } else {
      assert ts' == ts;
    }
  }

  lemma TransformsSnoc<H>(es: seq<Entry<H>>, e: Entry<H>)
    ensures Transforms(es + [e]) == Transforms(es) + (if e.Character? then [e.transform] else [])
  {
    assert (es + [e])[..|es|] == es;
  }

  lemma UnrelatedSnoc<H(!new)>(player: Option<H>, isChildOf: (H, H) -> bool, ts: seq<H>, t: H)
    ensures Unrelated(player, isChildOf, ts + [t]) ==
            Unrelated(player, isChildOf, ts) + (if TiedToPlayer(player, isChildOf, t) then [] else [t])
  {
    assert (ts + [t])[..|ts|] == ts;
  }

  lemma DedupSnoc<H(!new)>(xs: seq<H>, x: H)
    ensures Dedup(xs + [x]) == if x in Dedup(xs) then Dedup(xs) else Dedup(xs) + [x]
  {
    assert (xs + [x])[..|xs|] == xs;
  }

  /** The loop's enemy list after the given entries: CollectStep applied to each in turn. */
  function Collected<H(==,!new)>(player: Option<H>, isChildOf: (H, H) -> bool, es: seq<Entry<H>>): seq<H>
  {
    if es == [] then []
    else CollectStep(player, isChildOf, Collected(player, isChildOf, es[..|es| - 1]), es[|es| - 1])
  }

  /** Entry by entry, the loop builds exactly the reference list: deduplicated, unrelated character transforms. */
  lemma {:induction false} CollectedIsKept<H(!new)>(player: Option<H>, isChildOf: (H, H) -> bool, es: seq<Entry<H>>)
    ensures Collected(player, isChildOf, es) == Dedup(Unrelated(player, isChildOf, Transforms(es)))
    decreases |es|
  {
    if es != [] {
      var n := |es| - 1;
      assert es[..n + 1] == es;
      CollectedIsKept(player, isChildOf, es[..n]);
      KeptPrefixStep(player, isChildOf, es, n);
    }
  }

  /**
   The foreach loop of RescanCharacters, with the HashSet `added`: it stops
   at the first entry whose read throws, keeping what it has built so far.
   */
  method CollectEnemies<H(==,!new)>(player: Option<H>, isChildOf: (H, H) -> bool, entries: seq<Entry<H>>)
    returns (enemies: seq<H>, liveCount: nat)
    ensures enemies == Kept(player, isChildOf, entries)
    ensures liveCount == |Transforms(Readable(entries))|
  {
    enemies := [];
    liveCount := 0;
    var added: set<H> := {};
    var i := 0;
    while i < |entries| && !entries[i].Faulty?
      invariant 0 <= i <= |entries|
      invariant forall k :: 0 <= k < i ==> !entries[k].Faulty?
      invariant liveCount == |Transforms(entries[..i])|
      invariant enemies == Collected(player, isChildOf, entries[..i])
      invariant forall t :: t in added <==> t in enemies
      decreases |entries| - i
    {
      var e := entries[i];
      assert entries[..i + 1] == entries[..i] + [e];
      TransformsSnoc(entries[..i], e);
      if e.Character? {
        liveCount := liveCount + 1;
        if !TiedToPlayer(player, isChildOf, e.transform) && e.transform !in added {
          added := added + {e.transform};
          enemies := enemies + [e.transform];
        }
      }
      i := i + 1;
    }
    ReadableIsPrefixUpTo(entries, i);
    CollectedIsKept(player, isChildOf, entries[..i]);
  }

  /** The outcome of one RescanCharacters call. */
  datatype Scan<H> = Scan(
    playerBinder: PlayerBinder,
    trackerBinder: TrackerBinder,
    player: Option<H>,
    enemies: seq<H>,
    liveCount: nat)

  /**
   RescanCharacters: clear the list, find the player, bind the tracker and
   collect the live enemies.
   */
  function RescanCharacters<H(==,!new)>(pb: PlayerBinder, tb: TrackerBinder, src: ScanSource<H>): (s: Scan<H>)
    ensures s.player == FindPlayer(pb, src.player).player
    ensures s.playerBinder == BindPlayer(pb, src.player.probe).binder
    ensures s.trackerBinder == BindTracker(tb, src.tracker).binder
    // no tracker, or nothing enumerable: the list stays cleared
    ensures !s.trackerBinder.bound || src.liveEnemies.None? ==> s.enemies == [] && s.liveCount == 0
    ensures s.trackerBinder.bound && src.liveEnemies.Some? ==>
              s.liveCount == |Transforms(Readable(src.liveEnemies.value))|
              && forall t :: t in s.enemies <==>
                   Character(t) in Readable(src.liveEnemies.value) && !TiedToPlayer(s.player, src.isChildOf, t)
    ensures s.trackerBinder.bound && src.liveEnemies.Some? ==>
              s.enemies == Kept(s.player, src.isChildOf, src.liveEnemies.value)
    ensures NoDuplicates(s.enemies)
    ensures |s.enemies| <= s.liveCount
    ensures forall t :: t in s.enemies ==> !TiedToPlayer(s.player, src.isChildOf, t)
  {
    var found := FindPlayer(pb, src.player);
    var tracker := BindTracker(tb, src.tracker);
    if !tracker.ok || src.liveEnemies.None? then
      Scan(found.binder, tracker.binder, found.player, [], 0)
    else
      var entries := src.liveEnemies.value;
      Scan(found.binder, tracker.binder, found.player,
           Kept(found.player, src.isChildOf, entries), |Transforms(Readable(entries))|)
  }
}

=== FILE: scene_rules.dfy ===
/**
 The scene classifier of HordeModeController: whether a horde may be
 triggered in the active scene (IsZeroZone) and how long it lasts there
 (GetHordeDurationForScene). Both are pure functions of the scene name; the
 name Unity reports is a parameter, and an unavailable name is the empty
 string, as GetCurrentSceneName returns.
 */
module SceneRules {
  import opened Text

  /** Fragments of the lower-cased scene name that allow a horde, in the order they are tested. */
  const PermittedFragments: seq<string> :=
    ["groundzero", "base", "hiddenwarehouse", "farm_01", "farm_main",
     "jlab", "farm_jlab_facility", "stormzone"]

  /** The duration of a horde in a scene without an override, in seconds. */
  const BaseDuration: real := 25.0

  /** Duration overrides, in the order they are tested: the first fragment found wins. */
  const DurationOverrides: seq<(string, real)> :=
    [("farm_01", 45.0), ("farm_main", 45.0), ("stormzone", 40.0), ("hiddenwarehouse", 30.0)]

  /** Some entry of the permission table occurs in the lower-cased name. */
  ghost predicate MatchesPermitted(sceneName: string)
  {
    exists i :: 0 <= i < |PermittedFragments| && Contains(Lower(sceneName), PermittedFragments[i])
  }

  /** Some entry of the override table occurs in the lower-cased name. */
  ghost predicate MatchesOverride(sceneName: string)
  {
    exists i :: 0 <= i < |DurationOverrides| && Contains(Lower(sceneName), DurationOverrides[i].0)
  }

  /** Override `i` is the first entry of the override table found in the lower-cased name. */
  ghost predicate FirstOverride(sceneName: string, i: int)
  {
    && 0 <= i < |DurationOverrides|
    && Contains(Lower(sceneName), DurationOverrides[i].0)
    && forall j :: 0 <= j < i ==> !Contains(Lower(sceneName), DurationOverrides[j].0)
  }

  /** May a horde be triggered in the scene with this name? */
  function IsZeroZone(sceneName: string): (permitted: bool)
    ensures permitted <==> sceneName != [] && MatchesPermitted(sceneName)
  {
    if sceneName == [] then false
    else
      var lower := Lower(sceneName);
      if Contains(lower, "groundzero") then
        assert Contains(lower, PermittedFragments[0]);
        true
      else if Contains(lower, "base") then
        assert Contains(lower, PermittedFragments[1]);
        true
      else if Contains(lower, "hiddenwarehouse") then
        assert Contains(lower, PermittedFragments[2]);
        true
      else if Contains(lower, "farm_01") then
        assert Contains(lower, PermittedFragments[3]);
        true
      else if Contains(lower, "farm_main") then
        assert Contains(lower, PermittedFragments[4]);
        true
      else if Contains(lower, "jlab") then
        assert Contains(lower, PermittedFragments[5]);
        true
      else if Contains(lower, "farm_jlab_facility") then
        assert Contains(lower, PermittedFragments[6]);
        true
      else if Contains(lower, "stormzone") then
        assert Contains(lower, PermittedFragments[7]);
        true
      else
        assert forall i :: 0 <= i < |PermittedFragments| ==> !Contains(lower, PermittedFragments[i]);
        false
  }

  /** Some override entry matches exactly when one of the four fragment tests succeeds. */
  lemma OverrideMembership(sceneName: string)
    ensures var lower := Lower(sceneName);
            MatchesOverride(sceneName) <==>
              Contains(lower, "farm_01") || Contains(lower, "farm_main")
              || Contains(lower, "stormzone") || Contains(lower, "hiddenwarehouse")
  {
    var lower := Lower(sceneName);
    if MatchesOverride(sceneName) {
      var i :| 0 <= i < |DurationOverrides| && Contains(lower, DurationOverrides[i].0);
      assert i == 0 || i == 1 || i == 2 || i == 3;
    }
    if Contains(lower, "farm_01") {
      assert Contains(lower, DurationOverrides[0].0);
    } else if Contains(lower, "farm_main") {
      assert Contains(lower, DurationOverrides[1].0);
    } else if Contains(lower, "stormzone") {
      assert Contains(lower, DurationOverrides[2].0);
    } else if Contains(lower, "hiddenwarehouse") {
      assert Contains(lower, DurationOverrides[3].0);
    }
  }

  /** The first override entry that matches is the one the chain of tests stops at. */
  lemma FirstOverrideTests(sceneName: string)
    ensures var lower := Lower(sceneName);
            && (Contains(lower, "farm_01") ==> FirstOverride(sceneName, 0))
            && (!Contains(lower, "farm_01") && Contains(lower, "farm_main") ==> FirstOverride(sceneName, 1))
            && (!Contains(lower, "farm_01") && !Contains(lower, "farm_main") && Contains(lower, "stormzone") ==>
                  FirstOverride(sceneName, 2))
            && (!Contains(lower, "farm_01") && !Contains(lower, "farm_main") && !Contains(lower, "stormzone")
                && Contains(lower, "hiddenwarehouse") ==>
                  FirstOverride(sceneName, 3))
  {
    var lower := Lower(sceneName);
    // the table's fragments, in order
    assert DurationOverrides[0].0 == "farm_01" && DurationOverrides[1].0 == "farm_main";
    assert DurationOverrides[2].0 == "stormzone" && DurationOverrides[3].0 == "hiddenwarehouse";
    forall k | 0 <= k < |DurationOverrides| && Contains(lower, DurationOverrides[k].0)
      && forall j :: 0 <= j < k ==> !Contains(lower, DurationOverrides[j].0)
      ensures FirstOverride(sceneName, k)
    {
    }
  }

  /** The horde duration, in seconds, for the scene with this name. */
  function HordeDuration(sceneName: string): (d: real)
    ensures d != BaseDuration <==> sceneName != [] && MatchesOverride(sceneName)
    ensures d != BaseDuration ==> exists i :: FirstOverride(sceneName, i) && d == DurationOverrides[i].1
    ensures d >= BaseDuration
  {
    if sceneName == [] then BaseDuration
    else
      var lower := Lower(sceneName);
      OverrideMembership(sceneName);
      FirstOverrideTests(sceneName);
      if Contains(lower, "farm_01") || Contains(lower, "farm_main") then
        assert FirstOverride(sceneName, 0) || FirstOverride(sceneName, 1);
        45.0
      else if Contains(lower, "stormzone") then
        assert FirstOverride(sceneName, 2);
        40.0
      else if Contains(lower, "hiddenwarehouse") then
        assert FirstOverride(sceneName, 3);
        30.0
      else
        BaseDuration
  }

  /** Every fragment of the override table is also a fragment of the permission table. */
  lemma OverrideMatchIsPermitted(sceneName: string)
    requires sceneName != [] && MatchesOverride(sceneName)
    ensures IsZeroZone(sceneName)
  {
    var i :| 0 <= i < |DurationOverrides| && Contains(Lower(sceneName), DurationOverrides[i].0);
    // farm_01, farm_main, stormzone and hiddenwarehouse are permission entries 3, 4, 7 and 2
    var j := [3, 4, 7, 2][i];
    assert PermittedFragments[j] == DurationOverrides[i].0;
  }

  /** Every scene that gets a non-default duration is also a scene where a horde is permitted. */
  lemma OverrideImpliesPermitted(sceneName: string)
    ensures HordeDuration(sceneName) != BaseDuration ==> IsZeroZone(sceneName)
  {
    if HordeDuration(sceneName) != BaseDuration {
      OverrideMatchIsPermitted(sceneName);
    }
  }

  /** A permitted scene none of whose override fragments occurs gets the base duration. */
  lemma PermittedWithoutOverrideIsBase(sceneName: string)
    requires IsZeroZone(sceneName)
    requires forall i :: 0 <= i < |DurationOverrides| ==> !Contains(Lower(sceneName), DurationOverrides[i].0)
    ensures HordeDuration(sceneName) == BaseDuration
  {
  }

  /** The classifier ignores letter case: names equal after lower-casing are treated alike. */
  lemma CaseInsensitive(a: string, b: string)
    requires Lower(a) == Lower(b)
    ensures IsZeroZone(a) == IsZeroZone(b)
    ensures HordeDuration(a) == HordeDuration(b)
  {
    assert |a| == |Lower(a)| == |b|;
  }

  /** The `farm_jlab_facility` test never decides anything: the earlier `jlab` test already holds. */
  lemma FacilityFragmentIsSubsumed(sceneName: string)
    requires Contains(Lower(sceneName), "farm_jlab_facility")
    ensures Contains(Lower(sceneName), "jlab")
  {
    var facility := "farm_jlab_facility";
    ContainsInfix(Lower(sceneName), facility, 5, 9);
    assert facility[5..9] == "jlab";
  }

  /** A fragment whose first character is absent from a string does not occur in it. */
  lemma FirstCharAbsent(s: string, f: string)
    requires |f| > 0 && f[0] !in s
    ensures !Contains(s, f)
  {
    if Contains(s, f) {
      ContainsFirstChar(s, f);
    }
  }

  /** The lower-cased form of "Level_City". */
  lemma LevelCityLower(sceneName: string)
    requires sceneName == "Level_City"
    ensures Lower(sceneName) == "level_city"
  {
    assert |Lower(sceneName)| == 10;
  }

  /** "Level_City" matches no fragment: no horde there, base duration. */
  lemma LevelCityIsNotPermitted(sceneName: string)
    requires sceneName == "Level_City"
    ensures !IsZeroZone(sceneName)
    ensures HordeDuration(sceneName) == BaseDuration
  {
    LevelCityLower(sceneName);
    LevelCityMissesFragments(Lower(sceneName));
  }

  /** Every fragment starts with one of g, b, h, f, j and s, and none of these occurs in "level_city". */
  lemma LevelCityMissesFragments(lower: string)
    requires lower == "level_city"
    ensures forall i :: 0 <= i < |PermittedFragments| ==> !Contains(lower, PermittedFragments[i])
  {
    forall i | 0 <= i < |PermittedFragments|
      ensures !Contains(lower, PermittedFragments[i])
    {
      var f := PermittedFragments[i];
      assert f[0] in "gbhfjs";
      assert f[0] !in lower;
      FirstCharAbsent(lower, f);
    }
  }

  /** A farm-village scene is permitted and gets the long 45-second horde. */
  lemma FarmScenesGetFortyFive(sceneName: string)
    requires Contains(Lower(sceneName), "farm_01") || Contains(Lower(sceneName), "farm_main")
    ensures IsZeroZone(sceneName)
    ensures HordeDuration(sceneName) == 45.0
  {
    OverrideImpliesPermitted(sceneName);
  }

  /** The lower-cased form of "Level_Farm_Main". */
  lemma LevelFarmMainLower(sceneName: string)
    requires sceneName == "Level_Farm_Main"
    ensures Lower(sceneName) == "level_farm_main"
  {
    assert |Lower(sceneName)| == 15;
  }

  /** "level_farm_main" holds the farm_main fragment at index 6. */
  lemma FarmMainFragment(s: string)
    requires s == "level_farm_main"
    ensures Contains(s, "farm_main")
  {
    ContainsInfix(s, s, 6, 15);
    assert s[6..15] == "farm_main";
  }

  /** "Level_Farm_Main" is permitted and gets the long farm duration. */
  lemma FarmMainIsPermittedForFortyFive(sceneName: string)
    requires sceneName == "Level_Farm_Main"
    ensures IsZeroZone(sceneName)
    ensures HordeDuration(sceneName) == 45.0
  {
    LevelFarmMainLower(sceneName);
    FarmMainFragment(Lower(sceneName));
    FarmScenesGetFortyFive(sceneName);
  }
}

=== FILE: text.dfy ===
/**
 Character and substring helpers behind the scene-name rules: a lower-casing
 that folds only the ASCII letters A-Z and an ordinal substring test.
 */
module Text {

  /** Upper-case ASCII letters become lower case; every other character is kept. */
  function LowerChar(c: char): char
  {
    if 'A' <= c <= 'Z' then (c as int - 'A' as int + 'a' as int) as char else c
  }

  /** The string lower-cased one character at a time. */
  function Lower(s: string): (r: string)
    ensures |r| == |s|
    ensures forall i :: 0 <= i < |s| ==> r[i] == LowerChar(s[i])
  {
    if s == [] then [] else [LowerChar(s[0])] + Lower(s[1..])
  }

  /** `f` occurs in `s` starting at index `k`. */
  ghost predicate OccursAt(s: string, f: string, k: int)
  {
    0 <= k && k + |f| <= |s| && s[k..k + |f|] == f
  }

  /** An occurrence after the first character of `s` is an occurrence in `s[1..]`, one index earlier. */
  lemma OccursAfterHead(s: string, f: string)
    requires |s| > 0
    requires !(f <= s)
    ensures (exists k :: OccursAt(s, f, k)) <==> (exists k :: OccursAt(s[1..], f, k))
  {
    if k :| OccursAt(s, f, k) {
      assert k != 0;
      assert s[1..][k - 1..k - 1 + |f|] == s[k..k + |f|];
      assert OccursAt(s[1..], f, k - 1);
    }
    if k :| OccursAt(s[1..], f, k) {
      assert s[1..][k..k + |f|] == s[k + 1..k + 1 + |f|];
      assert OccursAt(s, f, k + 1);
    }
  }

  /** Ordinal substring test: does `f` occur anywhere in `s`? */
  function Contains(s: string, f: string): (b: bool)
    ensures b <==> exists k :: OccursAt(s, f, k)
    decreases |s|
  {
    if f <= s then
      assert s[0..|f|] == f;
      assert OccursAt(s, f, 0);
      true
    else if |s| == 0 then
      false
    else
      OccursAfterHead(s, f);
      Contains(s[1..], f)
  }

  /** Every infix of a fragment that occurs in `s` occurs in `s` as well. */
  lemma ContainsInfix(s: string, f: string, i: int, j: int)
    requires Contains(s, f)
    requires 0 <= i <= j <= |f|
    ensures Contains(s, f[i..j])
  {
    var k :| OccursAt(s, f, k);
    forall m | 0 <= m < j - i
      ensures s[k + i..k + j][m] == f[i..j][m]
    {
      assert s[k + i + m] == s[k..k + |f|][i + m];
    }
    assert OccursAt(s, f[i..j], k + i);
  }

  /** A non-empty fragment can only occur in a string that contains its first character. */
  lemma ContainsFirstChar(s: string, f: string)
    requires |f| > 0
    requires Contains(s, f)
    ensures f[0] in s
  {
    var k :| OccursAt(s, f, k);
    assert s[k] == s[k..k + |f|][0];
  }
}
